=== FILE: README.md ===
# Task manager and storefront core, modelled in Dafny

The repository holds two small web applications.

- **Task manager.** An Express and MongoDB backend keeps each user's tasks, and a React client shows them.
  - The backend task controller lists, creates, updates and deletes the caller's tasks.
    - A listing can be filtered by status and by a title search, and is sorted newest first.
    - Every id lookup is limited to the caller's own documents.
  - The user controller reads the caller's profile and overwrites name and bio.
  - The client's dashboard keeps an unfiltered displayed list in step with the server after each save or delete.
  - Its forms check their fields before they send anything.
- **Storefront.** A React catalog has a search and category filter, an inventory dashboard with stock counts and badges, and a wishlist of product ids.

This project models those parts as pure functions over immutable data:

- The task store is a sequence of `Task` records.
- A request is a datatype.
- A form is a record of strings.
- Each handler returns the new store together with an `Ok` result or an error.

Module layout, by source file:

| module | models |
|---|---|
| `Wrappers` | `Option` and `Result` |
| `Seqs` | the sequence vocabulary: filter, count, subsequence, first index |
| `Text` | JavaScript `trim`, `length` in UTF-16 code units, ASCII `toLowerCase`, `includes`, and `replace` with a one-character string |
| `TaskController` | `backend/src/controllers/taskController.js` |
| `TaskOwnership` | properties that tie the four task handlers together: isolation between users, unique ids, valid statuses |
| `UserController` | `backend/src/controllers/userController.js` |
| `DashboardPage` | `frontend/src/pages/DashboardPage.jsx` |
| `FormErrors` | the error objects the validators build |
| `TaskForm` | `frontend/src/components/TaskForm.jsx` |
| `TaskList` | `frontend/src/components/TaskList.jsx` |
| `RegisterPage`, `LoginPage`, `ProfilePage` | the three account pages |
| `Catalog` | `src/pages/Home.tsx` |
| `Inventory` | `src/pages/Dashboard.tsx` |
| `Wishlist` | `src/pages/Recommendations.tsx` |

Parts of the model that differ from a literal reading of the code:

- **Status on create.**
  - `createTask` passes any non-empty `status` through unchecked, and the model does the same.
  - A stored status therefore stays one of the three values only when the request's status was absent, empty or valid (`TaskOwnership.CreateKeepsStatusesValid`).
  - Unlike `updateTask` (taskController.js:62-67), `createTask` never checks the status against the three values.
  - The Task schema, which could still reject such a value, is not part of this model.
- **The title search.**
  - The code hands the search term to storage as a case-insensitive regular expression.
  - The model reads it as a case-insensitive substring, which agrees for terms without regular-expression metacharacters whose letters are ASCII.
- **Lookup by id.**
  - `findOne({ _id, user })` is modelled as the first stored task with that id and owner.
  - Ids are unique, which is a storage guarantee stated as `TaskOwnership.UniqueIds`.
  - Under that guarantee the first such task is the only one.
- **Malformed ids.** A task id that the storage driver cannot cast arrives as `IdParam.Malformed`. That path gives the 400 "Invalid task id" error.
- **Order of the listing.**
  - Storage sorts by `createdAt` descending and leaves the order of equal timestamps open.
  - The contracts therefore state only "sorted newest first" and "the same multiset as the matching tasks".
- **The dashboard after a save under a filter.** The displayed list is not filtered again after a save: a created task is put in front whatever its status, and an edited task stays in place even when it no longer matches. The `*KeepsInSync` lemmas are therefore stated for an unfiltered list, and `DashboardPage.FilteredCreateShowsUnlisted` shows a created task on screen that the filtered listing leaves out.
- **String length.** JavaScript's `length` counts UTF-16 code units, so a character outside the Basic Multilingual Plane, such as an emoji, counts twice (`Text.JsLength`). Every length rule in the forms uses it. Trimming is unaffected, because every JavaScript whitespace character lies in that plane.
- **Categories.** `new Set` keeps insertion order, so the category list is "all" followed by the distinct categories in first-appearance order. A product whose own category is "all" therefore makes "all" appear twice, exactly as in the code.

## Model

| member | source | states |
|---|---|---|
| TaskController.StatusesAreThree | backend/src/controllers/taskController.js:11-12 | exactly three statuses are recognised: "pending", "in-progress" and "completed" |
| TaskController.Satisfies | backend/src/controllers/taskController.js:10-18 | a document matching the query is the query's owner's, has its status when one is set, and contains its title term ignoring case; with no status or title term every one of the owner's documents matches |
| TaskController.BuildQuery | backend/src/controllers/taskController.js:10-16 | the query always names the caller; it constrains status exactly when the parameter is one of the three values, and title exactly when the search term is non-empty |
| TaskController.QueryMeansListed | backend/src/controllers/taskController.js:10-18 | a task satisfies the built query iff it is the caller's, has the requested status when that status is valid, and contains the search term in its title ignoring case |
| TaskController.InsertByDate | backend/src/controllers/taskController.js:18 | inserting into a newest-first list keeps it newest first and adds exactly that task to the multiset |
| TaskController.SortNewestFirst | backend/src/controllers/taskController.js:18 | the sort yields a newest-first permutation of its input |
| TaskController.GetTasks | backend/src/controllers/taskController.js:5-19 | every returned task is the caller's; a task is returned iff it is stored and matches the filters; the result is a newest-first permutation of the matching tasks |
| TaskController.ListingMembers | backend/src/controllers/taskController.js:18 | sorting the matching tasks keeps exactly the stored tasks the listing promises |
| TaskController.TaskError.Code | backend/src/controllers/taskController.js:33-95 | a missing task is the 404 reply; every other error is a 400 |
| TaskController.TaskError.Message | backend/src/controllers/taskController.js:33-95 | "Title is required", "Task not found" and "Invalid task id", one message per error |
| TaskController.CreateTask | backend/src/controllers/taskController.js:27-43 | an absent or empty title is the 400 error and leaves the store unchanged; otherwise exactly one task is appended, owned by the caller, with description defaulting to "" and status defaulting to "pending", and any other status kept as sent |
| TaskController.FindOwned | backend/src/controllers/taskController.js:57-58 | a found task is stored and has the id and the caller as owner; finding nothing means no stored task has both |
| TaskController.ApplyPatch | backend/src/controllers/taskController.js:60-67 | title and description are overwritten whenever sent, even as ""; status only with one of the three values; id, owner and creation time never change |
| TaskController.ReplaceOwned | backend/src/controllers/taskController.js:60-69 | saving changes only the located task, in place, into its patched version; with no located task the store is unchanged |
| TaskController.RemoveOwned | backend/src/controllers/taskController.js:86-89 | with no located task the store is unchanged; otherwise it is exactly one task shorter |
| TaskController.RemoveOwnedAt | backend/src/controllers/taskController.js:89 | `deleteOne` takes out exactly the located task at its own position and keeps the order of the rest |
| TaskController.RemovedAtMultiset | backend/src/controllers/taskController.js:89 | removing one position removes exactly that task from the multiset of stored tasks |
| TaskController.UpdateTask | backend/src/controllers/taskController.js:51-78 | a malformed id is the 400 error; "Task not found" exactly when no stored task has the id and the caller as owner; the update succeeds exactly when the id is well formed and such a task is stored; errors leave the store unchanged; on success only the located task changes, into the patched task returned |
| TaskController.DeleteTask | backend/src/controllers/taskController.js:81-98 | the same error cases as update, and success exactly when the id is well formed and the caller has a stored task with it; on success the reply is "Task removed" and exactly one task with that id and owner is removed, the rest keeping their order |
| TaskOwnership.ListSeesOnlyMine | backend/src/controllers/taskController.js:10-18 | two stores that agree on the caller's tasks give the caller the same listing, whatever the filters |
| TaskOwnership.UpdateSeesOnlyMine | backend/src/controllers/taskController.js:57-58 | an update's outcome and its effect on the caller's tasks depend only on the caller's tasks, so someone else's task is the same 404 as a missing one |
| TaskOwnership.DeleteSeesOnlyMine | backend/src/controllers/taskController.js:86-87 | the same isolation for delete |
| TaskOwnership.CreateSparesOthers | backend/src/controllers/taskController.js:36-41 | create leaves other users' tasks as they were and appends at most the created task to the caller's |
| TaskOwnership.UpdateSparesOthers | backend/src/controllers/taskController.js:57-69 | update leaves other users' tasks as they were |
| TaskOwnership.DeleteSparesOthers | backend/src/controllers/taskController.js:86-89 | delete leaves other users' tasks as they were |
| TaskOwnership.ReplaceOwnedKeepsMine | backend/src/controllers/taskController.js:57-69 | on the caller's own tasks, saving the patch is the same as patching the caller's list alone |
| TaskOwnership.RemoveOwnedKeepsMine | backend/src/controllers/taskController.js:86-89 | on the caller's own tasks, deleting is the same as deleting from the caller's list alone |
| TaskOwnership.CreateKeepsIdsUnique | backend/src/controllers/taskController.js:36-41 | a create with a fresh id keeps ids unique |
| TaskOwnership.UpdateKeepsIdsUnique | backend/src/controllers/taskController.js:60-69 | update keeps ids unique |
| TaskOwnership.DeleteKeepsIdsUnique | backend/src/controllers/taskController.js:89 | delete keeps ids unique |
| TaskOwnership.DeleteMembers | backend/src/controllers/taskController.js:86-90 | with unique ids, a successful delete leaves exactly the stored tasks with another id |
| TaskOwnership.DeleteRemovesOneTask | backend/src/controllers/taskController.js:89 | a successful delete takes exactly one of the caller's tasks with that id out of the multiset of stored tasks |
| TaskOwnership.DeletedTaskIsGone | backend/src/controllers/taskController.js:89-90 | after a successful delete no stored task, and so no later listing, has that id |
| TaskOwnership.UpdateMembers | backend/src/controllers/taskController.js:57-70 | with unique ids, a successful update leaves the tasks with another id plus the returned task |
| TaskOwnership.UpdateKeepsStatusesValid | backend/src/controllers/taskController.js:62-67 | update never stores a status outside the three values |
| TaskOwnership.CreateKeepsStatusesValid | backend/src/controllers/taskController.js:36-41 | create keeps statuses valid iff it fails or the sent status is absent, empty or one of the three values |
| TaskOwnership.PatchIdempotent | backend/src/controllers/taskController.js:60-67 | sending the same update twice is sending it once |
| TaskOwnership.EmptyPatchIsIdentity | backend/src/controllers/taskController.js:60-67 | an update with no fields changes nothing |
| TaskOwnership.UnknownStatusIsNoFilter | backend/src/controllers/taskController.js:11-13 | an unrecognised status parameter lists exactly what no status parameter lists |
| TaskOwnership.SearchExamples | backend/src/controllers/taskController.js:14-16 | "cat" matches "Catalog" and "scatter" but not "Dog" |
| UserController.GetMe | backend/src/controllers/userController.js:3-11 | the response holds the caller's id, name, email and bio and has no password field |
| UserController.UpdateMe | backend/src/controllers/userController.js:14-29 | name and bio are overwritten exactly when sent; id, email and password never change; the response is the saved user's public fields |
| UserController.UpdateMeIgnoresOtherFields | backend/src/controllers/userController.js:17 | an email or password in the body has no effect |
| UserController.UpdateMeIdempotent | backend/src/controllers/userController.js:19-22 | sending the same body twice is sending it once |
| UserController.UpdateMeEmptyBody | backend/src/controllers/userController.js:19-20 | a body with neither name nor bio saves the user unchanged |
| UserController.UpdateMeAcceptsEmptyName | backend/src/controllers/userController.js:19 | there is no validation: an empty name is stored |
| UserController.GetMeAfterUpdate | backend/src/controllers/userController.js:5-29 | reading the profile after an update shows the sent name and bio, or the old ones when not sent, and the same id and email as before |
| DashboardPage.ReplaceById | frontend/src/pages/DashboardPage.jsx:48-50 | every element with the edited id becomes the server's answer; length and all other elements stay in place |
| DashboardPage.RemoveById | frontend/src/pages/DashboardPage.jsx:68 | no element with the deleted id remains; every other element stays, as often as it occurred, in the same relative order |
| DashboardPage.AfterSave | frontend/src/pages/DashboardPage.jsx:46-55 | an edit replaces the edited task and clears the selection; a create puts the new task in front of the unchanged old list |
| DashboardPage.AfterDelete | frontend/src/pages/DashboardPage.jsx:67-71 | the list loses the id; the selection is cleared iff it was the deleted task |
| DashboardPage.SearchParams | frontend/src/pages/DashboardPage.jsx:34-40 | an empty search or status is sent as absent and anything else as given |
| DashboardPage.SearchParamsListSame | frontend/src/pages/DashboardPage.jsx:36-39 | dropping the empty parameters does not change what the server lists |
| DashboardPage.ReplaceByIdKeepsOthers | frontend/src/pages/DashboardPage.jsx:48-50 | the elements with other ids, in order, are the same before and after the replacement |
| DashboardPage.CreateKeepsInSync | frontend/src/pages/DashboardPage.jsx:53-54 | a list showing exactly the caller's tasks still does after a successful create |
| DashboardPage.DeleteKeepsInSync | frontend/src/pages/DashboardPage.jsx:67-68 | a list showing exactly the caller's tasks still does after a successful delete |
| DashboardPage.UpdateKeepsInSync | frontend/src/pages/DashboardPage.jsx:46-51 | a list showing exactly the caller's tasks still does after a successful edit |
| DashboardPage.FilteredCreateShowsUnlisted | frontend/src/pages/DashboardPage.jsx:53-54 | under a status filter, a created task whose status differs is shown although the filtered listing leaves it out |
| TaskForm.LoadForm | frontend/src/components/TaskForm.jsx:3-25 | an editable task's fields are copied, an empty status becoming "pending"; no editable task gives the initial form |
| TaskForm.TitleError | frontend/src/components/TaskForm.jsx:29-33 | "Title is required" iff the title is whitespace only; "Title must be at least 3 characters" iff it is not but trims to under 3 UTF-16 code units; no error iff it trims to 3 or more |
| TaskForm.Validate | frontend/src/components/TaskForm.jsx:27-36 | only the title can fail, and the form is valid iff the trimmed title is at least 3 UTF-16 code units long |
| TaskForm.HandleSubmit | frontend/src/components/TaskForm.jsx:42-45 | the form is handed to the page iff the trimmed title is at least 3 UTF-16 code units long, and then unchanged |
| TaskForm.EmojiTitleIsValid | frontend/src/components/TaskForm.jsx:31 | a title of two emoji is four code units long and passes |
| TaskForm.Reset | frontend/src/components/TaskForm.jsx:45 | the reset after a save restores the initial form |
| TaskForm.OnEditableTask | frontend/src/components/TaskForm.jsx:13-25 | choosing a task or none loads the form and clears the errors |
| TaskForm.ValidationReadsOnlyTitle | frontend/src/components/TaskForm.jsx:27-36 | description and status never affect validation |
| TaskForm.InitialFormIsRejected | frontend/src/components/TaskForm.jsx:3-30 | the initial form, and so the form after a reset, cannot be submitted and shows "Title is required" |
| TaskForm.CreateBody | frontend/src/pages/DashboardPage.jsx:53 | the create request carries the form's three fields |
| TaskForm.SentFormIsCreated | frontend/src/components/TaskForm.jsx:42-45 | a form the client sends is accepted by the create handler, and editing the created task shows the same form again |
| TaskList.StatusBadgeClass | frontend/src/components/TaskList.jsx:10-19 | "completed" iff "bg-success"; "in-progress" iff "bg-warning text-dark"; every other status iff "bg-secondary" |
| TaskList.StatusLabel | frontend/src/components/TaskList.jsx:35 | only the first "-" becomes a space; a status without a dash is its own label |
| TaskList.RenderRow | frontend/src/components/TaskList.jsx:23-43 | a row shows the task's id and title, the badge class and label of its status, and its description exactly when it is non-empty |
| TaskList.Render | frontend/src/components/TaskList.jsx:1-23 | the "No tasks found. Create your first task." message iff there are no tasks; otherwise one row per task, in order |
| TaskList.BadgesDistinguishStatuses | frontend/src/components/TaskList.jsx:10-19 | the three stored statuses get three different badges |
| TaskList.FirstDashLabel | frontend/src/components/TaskList.jsx:35 | the first dash becomes a space whatever follows it |
| TaskList.InProgressLabel | frontend/src/components/TaskList.jsx:35 | "in-progress" is labelled "in progress" |
| TaskList.PlainLabels | frontend/src/components/TaskList.jsx:35 | "pending" and "completed" are their own labels |
| TaskList.TwoDashLabel | frontend/src/components/TaskList.jsx:35 | "a-b-c" is labelled "a b-c" |
| TaskList.LabelKeepsLaterDashes | frontend/src/components/TaskList.jsx:35 | every dash after the first is kept |
| FormErrors.FieldError | frontend/src/components/TaskForm.jsx:28-33 | a field with no message adds no key; one with a message adds exactly that entry |
| FormErrors.ErrorFor | frontend/src/pages/RegisterPage.jsx:14-19 | a field has no message iff no entry names it; a found message is stored under that field |
| FormErrors.FirstError | frontend/src/pages/ProfilePage.jsx:51-52 | there is a first message iff there is an error, and it is the first field's |
| RegisterPage.RequiredError | frontend/src/pages/RegisterPage.jsx:15-16 | a required field fails iff it is whitespace only |
| RegisterPage.PasswordError | frontend/src/pages/RegisterPage.jsx:17-19 | "Password is required" iff empty; the length error iff 1 to 5 UTF-16 code units; no trimming |
| RegisterPage.Validate | frontend/src/pages/RegisterPage.jsx:13-22 | "Name is required" and "Email is required" iff that field is whitespace only, and the password error as above, each field independently; valid iff no field fails |
| RegisterPage.RegisterRequest | frontend/src/pages/RegisterPage.jsx:28-35 | the form is posted, as entered, iff name and email are not whitespace only and the password is at least 6 UTF-16 code units long |
| RegisterPage.EmojiPasswordIsLongEnough | frontend/src/pages/RegisterPage.jsx:18 | a password of three emoji is six code units long and passes |
| RegisterPage.EmptyFormHasAllErrors | frontend/src/pages/RegisterPage.jsx:13-22 | the empty form has all three errors at once |
| RegisterPage.PasswordIsNotTrimmed | frontend/src/pages/RegisterPage.jsx:17-19 | spaces count towards the password's length |
| LoginPage.Validate | frontend/src/pages/LoginPage.jsx:14-20 | "Email is required" iff the email is whitespace only; "Password is required" iff the password is empty; valid iff neither |
| LoginPage.LoginRequest | frontend/src/pages/LoginPage.jsx:26-33 | the form is posted iff it is valid, and then as entered |
| LoginPage.RedirectTarget | frontend/src/pages/LoginPage.jsx:35 | the origin path when one is given, "/dashboard" when it is absent or empty |
| LoginPage.NoPasswordLengthRule | frontend/src/pages/LoginPage.jsx:17 | a one-character password passes |
| ProfilePage.NameError | frontend/src/pages/ProfilePage.jsx:33-37 | "Name is required" iff whitespace only; "Name must be at least 2 characters" iff it trims to one UTF-16 code unit; no error iff it trims to 2 or more |
| ProfilePage.Validate | frontend/src/pages/ProfilePage.jsx:31-39 | only the name is checked, with the rule above |
| ProfilePage.Submit | frontend/src/pages/ProfilePage.jsx:45-58 | a name trimming to under 2 UTF-16 code units shows its message and sends nothing; otherwise the name and bio are sent as entered |
| ProfilePage.EmojiNameIsValid | frontend/src/pages/ProfilePage.jsx:35 | a name of one emoji is two code units long and passes |
| ProfilePage.MergeSaved | frontend/src/pages/ProfilePage.jsx:60-67 | the signed-in user takes name and bio from the response and keeps every other field |
| ProfilePage.BioIsNotValidated | frontend/src/pages/ProfilePage.jsx:31-39 | the bio never affects the check |
| ProfilePage.SubmitThenMerge | frontend/src/pages/ProfilePage.jsx:50-67 | after a sent update the signed-in user has the entered name and bio and keeps its other fields; the stored email is unchanged |
| Catalog.MatchesSearch | src/pages/Home.tsx:56-57 | the query occurs in the name or in the description, both folded to lower case |
| Catalog.MatchesCategory | src/pages/Home.tsx:58 | "all" matches every product; any other value matches only products of that category |
| Catalog.FilteredProducts | src/pages/Home.tsx:55-60 | every shown product matches the search and the category, and there are no more than in the catalog |
| Catalog.FilteredMembers | src/pages/Home.tsx:55-60 | a product is shown iff it is in the catalog, its name or description contains the query ignoring case, and the category is "all" or its own; every copy of a shown product is kept, in catalog order |
| Catalog.EmptySearchMatchesAll | src/pages/Home.tsx:56-57 | an empty query matches every product |
| Catalog.NoFilterShowsAll | src/pages/Home.tsx:55-60 | an empty query with "all" shows the whole catalog |
| Catalog.EmptySearchFiltersByCategory | src/pages/Home.tsx:55-60 | with an empty query only the category decides |
| Catalog.Categories | src/pages/Home.tsx:62 | "all" first, then each product category exactly once, in first-appearance order |
| Inventory.LowStockCount | src/pages/Dashboard.tsx:60 | counts exactly the products with fewer than 15 units |
| Inventory.OutOfStockCount | src/pages/Dashboard.tsx:62 | counts exactly the products with no units |
| Inventory.StockBadge.Text | src/pages/Dashboard.tsx:177-185 | the three badges read "Out of Stock", "Low Stock" and "In Stock", one text each |
| Inventory.Badge | src/pages/Dashboard.tsx:177-185 | "Out of Stock" iff 0 units, "Low Stock" iff not 0 and under 15, "In Stock" iff 15 or more |
| Inventory.CountsOrdered | src/pages/Dashboard.tsx:59-62 | out of stock never exceeds low stock, which never exceeds the total |
| Inventory.CountsMatchBadges | src/pages/Dashboard.tsx:59-185 | out of stock counts the "Out of Stock" badges; low stock counts those and the "Low Stock" badges; the rest are "In Stock" |
| Wishlist.Toggle | src/pages/Recommendations.tsx:57-67 | the id's membership flips, every other id's stays, and the size changes by one |
| Wishlist.ToggleTwice | src/pages/Recommendations.tsx:58-64 | toggling the same id twice restores the wishlist |
| Wishlist.TogglesCommute | src/pages/Recommendations.tsx:57-67 | toggles of two ids can be done in either order |
| Text.Trim | frontend/src/components/TaskForm.jsx:29 | the result is the input without surrounding whitespace, and it neither starts nor ends with whitespace |
| Text.TrimEmptyIffWhitespace | frontend/src/pages/RegisterPage.jsx:15 | a string trims to "" iff it is whitespace only |
| Text.JsLength | frontend/src/components/TaskForm.jsx:31 | a string's JavaScript `length` is between its number of characters and twice that, and equals it iff no character is astral |
| Text.JsLengthCountsAstral | frontend/src/pages/RegisterPage.jsx:18 | the JavaScript length is the number of characters plus the number of astral characters |
| Text.JsLengthConcat | frontend/src/components/TaskForm.jsx:31 | the JavaScript length of a concatenation is the sum of the lengths |
| Text.JsLengthOfEmoji | frontend/src/components/TaskForm.jsx:31 | an emoji is one character but has length 2 |
| Text.LowerChar | src/pages/Home.tsx:56 | ASCII capitals move to lower case and every other character stays |
| Text.Lower | src/pages/Home.tsx:56-57 | the folded string has the same length and each character is folded |
| Text.ContainsIgnoreCase | backend/src/controllers/taskController.js:14-16 | true iff the folded needle occurs as a contiguous block of the folded text |
| Text.CaseIsIgnored | src/pages/Home.tsx:56-57 | folding either side first does not change the answer |
| Text.Contains | src/pages/Home.tsx:56-57 | true iff the needle occurs as a contiguous block |
| Text.ReplaceFirst | frontend/src/components/TaskList.jsx:35 | only the first occurrence is replaced |

## Left out

- The Express app, routing, CORS, the database connection and the Mongoose calls are not modelled: they are wiring and I/O. `backend/server.js` is not part of this model.
  - The store is a sequence of tasks.
  - The new id and the creation time of a created task are parameters.
  - `req.user` is a parameter.
- Storage failures are left out because they happen outside the controllers. They include the 500 "Server error" replies and a failing `save`.
- The Task and User schemas are not part of this model. So is any validation they might add, such as an enumeration check on a created status.
- Request bodies and query strings are modelled as strings, possibly absent. JavaScript truthiness on other JSON values, such as a numeric title or an array-valued query parameter, is not modelled.
- The storage driver's cast of a route id is not modelled. Whether an id can be cast is part of the `IdParam` input.
- `$regex` search semantics are not modelled: the title search is read as a case-insensitive substring, as explained above.
- Case folding is modelled on ASCII letters only, both for the storefront's `toLowerCase` and for the backend's case-insensitive title match (`$options: "i"`): Unicode case folding is not modelled, so a search for "é" in the model misses "École".
- Token issuance, the auth context, localStorage and the `authToken` read on the profile page are browser storage and I/O. `frontend/src/context/AuthContext.jsx` is not part of this model.
- The hosted-backend queries in the storefront pages are remote calls. This covers their server-side ordering and limits, and the fetch of the product list. The models take the product list as given.
- Prices, `totalValue`, `toFixed`, and the float parsing and form state of the Admin page are floating point and remote mutations. `Product` has no price.
- Date formatting with `toLocaleString` and `formatDistanceToNow` is presentation only.
- App.jsx, Navbar.jsx, NotFoundPage.jsx, Navigation.tsx, ProductDetail.tsx and ProductCard.tsx are presentation only. ProductCard only repeats the threshold of 15.
- Loading flags, `window.confirm`, toasts, navigation calls, server error banners and the success message are UI side effects. A failed request changes no list.
- The profile page's initial form, and its refill from `GET /users/me`, are not modelled: they are fetch side effects that copy fields into the form.
- The register and login pages post the form to endpoints whose controllers are not part of this model. What the server does with those posts is not modelled.
- The tie order of equal creation times in a listing is left open by storage. `TaskController.GetTasks` promises sortedness and the matching multiset, not one order.

=== FILE: catalog.dfy ===
/** The storefront catalog: the search and category filter over the product list,
    and the list of categories offered by the filter. */
module Catalog {
  import opened Seqs
  import opened Text

  /** A product record; the price is a floating-point amount and is not modelled. */
  datatype Product = Product(id: string, name: string, slug: string, description: string,
                             category: string, inventory: int)

  const AllCategories := "all"

  /** The search matches the name or the description, ignoring ASCII case. */
  function MatchesSearch(p: Product, query: string): (b: bool)
    ensures b <==> (exists k :: OccursAt(Lower(p.name), Lower(query), k))
                   || (exists k :: OccursAt(Lower(p.description), Lower(query), k))
  {
    ContainsIgnoreCase(p.name, query) || ContainsIgnoreCase(p.description, query)
  }

  /** "all" matches every product; any other value only products of that category. */
  function MatchesCategory(p: Product, category: string): (b: bool)
    ensures category == AllCategories ==> b
    ensures category != AllCategories ==> (b <==> p.category == category)
  {
    category == AllCategories || p.category == category
  }

  function Matches(query: string, category: string): Product -> bool {
    (p: Product) => MatchesSearch(p, query) && MatchesCategory(p, category)
  }

  /** The products shown: those matching both the search and the category. */
  function FilteredProducts(products: seq<Product>, query: string, category: string): (r: seq<Product>)
    ensures |r| <= |products|
    ensures forall i :: 0 <= i < |r| ==> MatchesSearch(r[i], query) && MatchesCategory(r[i], category)
  {
    Filter(products, Matches(query, category))
  }

  // ---------------------------------------------------------------- properties

  /** A product is shown iff it is in the catalog and matches both filters; the
      shown list keeps the catalog's order and every copy of what it shows. */
  lemma FilteredMembers(products: seq<Product>, query: string, category: string)
    ensures forall p :: p in FilteredProducts(products, query, category)
                  <==> p in products && MatchesSearch(p, query) && MatchesCategory(p, category)
    ensures IsSubsequence(FilteredProducts(products, query, category), products)
    ensures forall p :: multiset(FilteredProducts(products, query, category))[p]
                  == if MatchesSearch(p, query) && MatchesCategory(p, category) then multiset(products)[p] else 0
  {
    FilterMembers(products, Matches(query, category));
    FilterMultiset(products, Matches(query, category));
    FilterIsSubsequence(products, Matches(query, category));
  }

  /** An empty search matches every product. */
  lemma EmptySearchMatchesAll(p: Product)
    ensures MatchesSearch(p, "")
  {
    ContainsEmpty(p.name);
  }

  /** With an empty search and "all", the whole catalog is shown. */
  lemma NoFilterShowsAll(products: seq<Product>)
    ensures FilteredProducts(products, "", AllCategories) == products
  {
    forall i | 0 <= i < |products| ensures Matches("", AllCategories)(products[i]) {
      EmptySearchMatchesAll(products[i]);
    }
    FilterAll(products, Matches("", AllCategories));
  }

  /** With an empty search, only the category decides. */
  lemma EmptySearchFiltersByCategory(products: seq<Product>, category: string)
    ensures forall p :: p in FilteredProducts(products, "", category)
                  <==> p in products && MatchesCategory(p, category)
  {
    FilteredMembers(products, "", category);
    forall p ensures MatchesSearch(p, "") {
      EmptySearchMatchesAll(p);
    }
  }

  // ---------------------------------------------------------------- categories

  function CategoryOf(products: seq<Product>): (cs: seq<string>)
    ensures |cs| == |products| && forall i :: 0 <= i < |products| ==> cs[i] == products[i].category
  {
    seq(|products|, i requires 0 <= i < |products| => products[i].category)
  }

  /** `seen` holds the distinct values among `cs[..i]`, each once, in the order of
      their first appearance in `cs`. */
  ghost predicate Gathered(cs: seq<string>, seen: seq<string>, i: int) {
    && 0 <= i <= |cs|
    && NoDuplicates(seen)
    && (forall j :: 0 <= j < i ==> cs[j] in seen)
    && (forall a :: 0 <= a < |seen| ==> seen[a] in cs && IndexOf(cs, seen[a]) < i)
    && (forall a, b :: 0 <= a < b < |seen| ==> IndexOf(cs, seen[a]) < IndexOf(cs, seen[b]))
  }

  /** One step of building the set: a value seen for the first time goes at the end. */
  lemma GatherStep(cs: seq<string>, seen: seq<string>, i: int)
    requires Gathered(cs, seen, i) && i < |cs|
    ensures Gathered(cs, if cs[i] in seen then seen else seen + [cs[i]], i + 1)
  {
    if cs[i] !in seen {
      GatherNew(cs, seen, i);
    }
  }

  /** A value not seen before is at its first appearance, so it goes last. */
  lemma GatherNew(cs: seq<string>, seen: seq<string>, i: int)
    requires Gathered(cs, seen, i) && i < |cs| && cs[i] !in seen
    ensures Gathered(cs, seen + [cs[i]], i + 1)
  {
    var seen' := seen + [cs[i]];
    var n := |seen|;
    assert forall a :: 0 <= a < n ==> seen'[a] == seen[a];
    assert seen'[n] == cs[i];
    forall j | 0 <= j < i ensures cs[j] != cs[i] {
      assert cs[j] in seen;
    }
    IndexOfIs(cs, cs[i], i);
    forall a, b | 0 <= a < b < |seen'| ensures seen'[a] != seen'[b] {
      if b == n {
        assert seen'[a] in seen;
      }
    }
    forall a | 0 <= a < |seen'| ensures seen'[a] in cs && IndexOf(cs, seen'[a]) < i + 1 {
      if a < n {
        assert seen'[a] == seen[a];
      }
    }
    forall a, b | 0 <= a < b < |seen'| ensures IndexOf(cs, seen'[a]) < IndexOf(cs, seen'[b]) {
      assert seen'[a] == seen[a];
      if b < n {
        assert seen'[b] == seen[b];
      } else {
        assert IndexOf(cs, seen[a]) < i;
      }
    }
    forall j | 0 <= j < i + 1 ensures cs[j] in seen' {
      if j < i {
        assert cs[j] in seen;
        var a :| 0 <= a < n && seen[a] == cs[j];
        assert seen'[a] == cs[j];
      }
    }
  }

  /** `["all", ...new Set(products.map(p => p.category))]`: "all", then each category
      once, in the order of its first appearance. */
  method Categories(products: seq<Product>) returns (r: seq<string>)
    ensures |r| >= 1 && r[0] == AllCategories
    ensures NoDuplicates(r[1..])
    ensures forall c :: c in r[1..] <==> c in CategoryOf(products)
    ensures forall a, b :: 1 <= a < b < |r| ==>
              IndexOf(CategoryOf(products), r[a]) < IndexOf(CategoryOf(products), r[b])
  {
    var cs := CategoryOf(products);
    var seen: seq<string> := [];
    var i := 0;
    while i < |cs|
      invariant Gathered(cs, seen, i)
    {
      GatherStep(cs, seen, i);
      if cs[i] !in seen {
        seen := seen + [cs[i]];
      }
      i := i + 1;
    }
    r := [AllCategories] + seen;
    assert r[1..] == seen;
  }
}

=== FILE: dashboard_page.dfy ===
/** The task dashboard's client-side list state: how the displayed list and the
    edit selection follow a successful save or delete, and how the filter form
    becomes request parameters. */
module DashboardPage {
  import opened Wrappers
  import opened Seqs
  import opened UserController
  import opened TaskController
  import opened TaskOwnership

  /** The displayed tasks and the task selected for editing, if any. */
  datatype Dashboard = Dashboard(tasks: seq<Task>, editing: Option<Task>)

  /** `prev.map(t => t._id === id ? data : t)`. */
  function ReplaceById(tasks: seq<Task>, id: TaskId, data: Task): (r: seq<Task>)
    ensures |r| == |tasks|
    ensures forall i :: 0 <= i < |tasks| ==> r[i] == (if tasks[i].id == id then data else tasks[i])
  {
    if |tasks| == 0 then []
    else [if tasks[0].id == id then data else tasks[0]] + ReplaceById(tasks[1..], id, data)
  }

  function HasOtherId(id: TaskId): Task -> bool {
    (t: Task) => t.id != id
  }

  /** The list after a delete: every task with another id, every copy of it, in order. */
  function RemoveById(tasks: seq<Task>, id: TaskId): (r: seq<Task>)
    ensures forall i :: 0 <= i < |r| ==> r[i].id != id
    ensures forall t :: t in tasks && t.id != id ==> t in r
    ensures forall t :: t in r ==> t in tasks
    ensures IsSubsequence(r, tasks)
    ensures forall t :: multiset(r)[t] == if t.id != id then multiset(tasks)[t] else 0
  {
    FilterMembers(tasks, HasOtherId(id));
    FilterIsSubsequence(tasks, HasOtherId(id));
    FilterMultiset(tasks, HasOtherId(id));
    Filter(tasks, HasOtherId(id))
  }

  /** After the server answered a save with `data`: an edit replaces the edited task
      and ends editing; a create puts the new task in front. */
  function AfterSave(d: Dashboard, data: Task): (r: Dashboard)
    ensures r.editing.None?
    ensures d.editing.Some? ==> r.tasks == ReplaceById(d.tasks, d.editing.value.id, data)
    ensures d.editing.None? ==> |r.tasks| == |d.tasks| + 1 && r.tasks[0] == data && r.tasks[1..] == d.tasks
  {
    match d.editing
    case Some(e) => Dashboard(ReplaceById(d.tasks, e.id, data), None)
    case None => Dashboard([data] + d.tasks, None)
  }

  /** After the server confirmed deleting `id`. */
  function AfterDelete(d: Dashboard, id: TaskId): (r: Dashboard)
    ensures r.tasks == RemoveById(d.tasks, id)
    ensures r.editing.None? <==> d.editing.None? || d.editing.value.id == id
    ensures r.editing.Some? ==> r.editing == d.editing
  {
    var editing := if d.editing.Some? && d.editing.value.id == id then None else d.editing;
    Dashboard(RemoveById(d.tasks, id), editing)
  }

  /** The filter form's text fields as query parameters: "" is not sent. */
  function SearchParams(search: string, statusFilter: string): (r: ListParams)
    ensures r.search.None? <==> search == ""
    ensures r.status.None? <==> statusFilter == ""
    ensures r.search.Some? ==> r.search.value == search
    ensures r.status.Some? ==> r.status.value == statusFilter
  {
    ListParams(if search == "" then None else Some(search),
               if statusFilter == "" then None else Some(statusFilter))
  }

  /** Dropping empty parameters does not change what the server lists. */
  lemma SearchParamsListSame(s: Store, u: UserId, search: string, statusFilter: string)
    ensures GetTasks(s, u, SearchParams(search, statusFilter))
         == GetTasks(s, u, ListParams(Some(search), Some(statusFilter)))
  {
    assert BuildQuery(u, SearchParams(search, statusFilter))
        == BuildQuery(u, ListParams(Some(search), Some(statusFilter)));
  }

  /** An update replaces the edited task and keeps the others in place. */
  lemma {:induction false} ReplaceByIdKeepsOthers(tasks: seq<Task>, id: TaskId, data: Task)
    requires data.id == id
    ensures Filter(ReplaceById(tasks, id, data), HasOtherId(id)) == Filter(tasks, HasOtherId(id))
  {
    if |tasks| > 0 {
      var r := ReplaceById(tasks, id, data);
      ReplaceByIdKeepsOthers(tasks[1..], id, data);
      assert r == [r[0]] + ReplaceById(tasks[1..], id, data);
      assert tasks == [tasks[0]] + tasks[1..];
      FilterCons(r[0], ReplaceById(tasks[1..], id, data), HasOtherId(id));
      FilterCons(tasks[0], tasks[1..], HasOtherId(id));
    }
  }

  // ---------------------------------------------------------------- the list stays in sync

  const Unfiltered := ListParams(None, None)

  /** The displayed list holds exactly the tasks an unfiltered listing returns. */
  ghost predicate InSync(view: seq<Task>, s: Store, u: UserId) {
    forall t :: t in view <==> t in GetTasks(s, u, Unfiltered)
  }

  lemma UnfilteredMembers(s: Store, u: UserId)
    ensures forall t :: t in GetTasks(s, u, Unfiltered) <==> t in s && t.owner == u
  {
  }

  /** Prepending the created task keeps an unfiltered list in sync with the server. */
  lemma CreateKeepsInSync(d: Dashboard, s: Store, u: UserId, body: NewTask, newId: TaskId, now: int)
    requires d.editing.None? && InSync(d.tasks, s, u)
    requires CreateTask(s, u, body, newId, now).result.Ok?
    ensures InSync(AfterSave(d, CreateTask(s, u, body, newId, now).result.value).tasks,
                   CreateTask(s, u, body, newId, now).store, u)
  {
    var r := CreateTask(s, u, body, newId, now);
    UnfilteredMembers(s, u);
    UnfilteredMembers(r.store, u);
    var view := AfterSave(d, r.result.value).tasks;
    assert view == [r.result.value] + d.tasks;
  }

  /** Removing the deleted id keeps an unfiltered list in sync with the server. */
  lemma DeleteKeepsInSync(d: Dashboard, s: Store, u: UserId, id: TaskId)
    requires UniqueIds(s) && InSync(d.tasks, s, u)
    requires DeleteTask(s, u, WellFormed(id)).result.Ok?
    ensures InSync(AfterDelete(d, id).tasks, DeleteTask(s, u, WellFormed(id)).store, u)
  {
    UnfilteredMembers(s, u);
    UnfilteredMembers(DeleteTask(s, u, WellFormed(id)).store, u);
    DeleteMembers(s, u, id);
  }

  /** The displayed list after an edit: the other tasks, and the server's answer. */
  lemma ReplaceByIdMembers(tasks: seq<Task>, id: TaskId, data: Task, edited: Task)
    requires edited in tasks && edited.id == id
    ensures forall t :: t in ReplaceById(tasks, id, data) <==> (t in tasks && t.id != id) || t == data
  {
    var r := ReplaceById(tasks, id, data);
    var k :| 0 <= k < |tasks| && tasks[k] == edited;
    assert r[k] == data;
    forall t ensures t in r <==> (t in tasks && t.id != id) || t == data {
      if t in tasks && t.id != id {
        var j :| 0 <= j < |tasks| && tasks[j] == t;
        assert r[j] == t;
      }
    }
  }

  /** Replacing the edited task by the server's answer keeps an unfiltered list in sync. */
  lemma UpdateKeepsInSync(d: Dashboard, s: Store, u: UserId, p: TaskPatch)
    requires UniqueIds(s) && InSync(d.tasks, s, u)
    requires d.editing.Some? && d.editing.value in d.tasks
    requires UpdateTask(s, u, WellFormed(d.editing.value.id), p).result.Ok?
    ensures InSync(AfterSave(d, UpdateTask(s, u, WellFormed(d.editing.value.id), p).result.value).tasks,
                   UpdateTask(s, u, WellFormed(d.editing.value.id), p).store, u)
  {
    var id := d.editing.value.id;
    var r := UpdateTask(s, u, WellFormed(id), p);
    UnfilteredMembers(s, u);
    UnfilteredMembers(r.store, u);
    UpdateMembers(s, u, id, p);
    ReplaceByIdMembers(d.tasks, id, r.result.value, d.editing.value);
  }

  /** The list is not filtered again after a save: under a status filter a created
      task is shown although the filtered listing leaves it out. */
  lemma FilteredCreateShowsUnlisted()
    ensures var r := CreateTask([], 1, NewTask(Some("A"), None, None), 1, 0);
            && r.result.Ok?
            && r.result.value in AfterSave(Dashboard([], None), r.result.value).tasks
            && r.result.value !in GetTasks(r.store, 1, ListParams(None, Some("completed")))
  {
    var r := CreateTask([], 1, NewTask(Some("A"), None, None), 1, 0);
    assert r.result.value.status == "pending";
    assert !Listed(r.result.value, 1, ListParams(None, Some("completed")));
  }
}

=== FILE: form_errors.dfy ===
/** A form's validation result: the error messages by field, in the order the fields
    were checked (the key order of a JavaScript object built field by field). */
module FormErrors {
  import opened Wrappers

  datatype Entry = Entry(field: string, message: string)

  type Errors = seq<Entry>

  /** The entry for one field when its check produced a message, nothing otherwise. */
  function FieldError(field: string, message: Option<string>): (r: Errors)
    ensures message.None? <==> r == []
    ensures message.Some? ==> r == [Entry(field, message.value)]
  {
    match message
    case None => []
    case Some(m) => [Entry(field, m)]
  }

  /** The message recorded for `field`, if any. */
  function ErrorFor(errs: Errors, field: string): (r: Option<string>)
    ensures r.None? <==> forall i :: 0 <= i < |errs| ==> errs[i].field != field
    ensures r.Some? ==> Entry(field, r.value) in errs
  {
    if |errs| == 0 then None
    else if errs[0].field == field then Some(errs[0].message)
    else ErrorFor(errs[1..], field)
  }

  /** `Object.keys(errs).length === 0`. */
  predicate NoErrors(errs: Errors) {
    |errs| == 0
  }

  /** `Object.values(errs)[0]`: the message of the first field that failed. */
  function FirstError(errs: Errors): (r: Option<string>)
    ensures r.None? <==> NoErrors(errs)
    ensures r.Some? ==> r.value == errs[0].message
  {
    if |errs| == 0 then None else Some(errs[0].message)
  }

  /** Looking a field up in two groups of errors: the first group wins. */
  lemma {:induction false} ErrorForConcat(a: Errors, b: Errors, field: string)
    ensures ErrorFor(a + b, field) == if ErrorFor(a, field).Some? then ErrorFor(a, field) else ErrorFor(b, field)
  {
    if |a| > 0 {
      assert (a + b)[1..] == a[1..] + b;
      ErrorForConcat(a[1..], b, field);
    } else {
      assert a + b == b;
    }
  }

  lemma ErrorForField(field: string, message: Option<string>, other: string)
    ensures ErrorFor(FieldError(field, message), other) == if field == other then message else None
  {
  }

  /** Looking a field up in the errors of two separately checked fields. */
  lemma ErrorForTwo(fa: string, a: Option<string>, fb: string, b: Option<string>, field: string)
    requires fa != fb
    ensures ErrorFor(FieldError(fa, a) + FieldError(fb, b), field)
         == if field == fa then a else if field == fb then b else None
  {
    ErrorForConcat(FieldError(fa, a), FieldError(fb, b), field);
  }

  /** Looking a field up in the errors of three separately checked fields. */
  lemma ErrorForThree(fa: string, a: Option<string>, fb: string, b: Option<string>,
                      fc: string, c: Option<string>, field: string)
    requires fa != fb && fa != fc && fb != fc
    ensures ErrorFor(FieldError(fa, a) + FieldError(fb, b) + FieldError(fc, c), field)
         == if field == fa then a else if field == fb then b else if field == fc then c else None
  {
    ErrorForConcat(FieldError(fa, a) + FieldError(fb, b), FieldError(fc, c), field);
    ErrorForTwo(fa, a, fb, b, field);
  }
}

=== FILE: inventory.dfy ===
/** The inventory dashboard: stock counts over the product list and the stock badge
    of each product. */
module Inventory {
  import opened Seqs
  import opened Catalog

  /** Below this many units a product is low on stock. */
  const LowStockThreshold := 15

  predicate IsLowStock(p: Product) { p.inventory < LowStockThreshold }

  predicate IsOutOfStock(p: Product) { p.inventory == 0 }

  /** The number of products with fewer than 15 units. */
  function LowStockCount(products: seq<Product>): (n: nat)
    ensures n == |set i | 0 <= i < |products| && products[i].inventory < 15|
    ensures n == |Filter(products, IsLowStock)|
  {
    CountIsFilterLength(products, IsLowStock);
    assert Positions(products, IsLowStock)
        == (set i | 0 <= i < |products| && products[i].inventory < 15);
    Count(products, IsLowStock)
  }

  /** The number of products with no units at all. */
  function OutOfStockCount(products: seq<Product>): (n: nat)
    ensures n == |set i | 0 <= i < |products| && products[i].inventory == 0|
    ensures n == |Filter(products, IsOutOfStock)|
  {
    CountIsFilterLength(products, IsOutOfStock);
    assert Positions(products, IsOutOfStock)
        == (set i | 0 <= i < |products| && products[i].inventory == 0);
    Count(products, IsOutOfStock)
  }

  datatype StockBadge = OutOfStock | LowStock | InStock {
    /** The badge's text; each badge has its own. */
    function Text(): (r: string)
      ensures r == "Out of Stock" <==> this == OutOfStock
      ensures r == "Low Stock" <==> this == LowStock
      ensures r == "In Stock" <==> this == InStock
    {
      match this
      case OutOfStock => "Out of Stock"
      case LowStock => "Low Stock"
      case InStock => "In Stock"
    }
  }

  /** The badge: none left is out of stock (never low), under 15 is low. */
  function Badge(inventory: int): (b: StockBadge)
    ensures b == OutOfStock <==> inventory == 0
    ensures b == LowStock <==> inventory != 0 && inventory < 15
    ensures b == InStock <==> inventory >= 15
  {
    if inventory == 0 then OutOfStock
    else if inventory < LowStockThreshold then LowStock
    else InStock
  }

  function HasBadge(b: StockBadge): Product -> bool {
    (p: Product) => Badge(p.inventory) == b
  }

  // ---------------------------------------------------------------- properties

  /** Out of stock is a special case of low stock, so the counts are ordered. */
  lemma CountsOrdered(products: seq<Product>)
    ensures OutOfStockCount(products) <= LowStockCount(products) <= |products|
  {
    CountMonotone(products, IsOutOfStock, IsLowStock);
  }

  /** The counts agree with the badges: out of stock counts the "Out of Stock"
      badges, low stock counts those and the "Low Stock" badges together. */
  lemma CountsMatchBadges(products: seq<Product>)
    ensures OutOfStockCount(products) == Count(products, HasBadge(OutOfStock))
    ensures LowStockCount(products) == Count(products, HasBadge(OutOfStock)) + Count(products, HasBadge(LowStock))
    ensures |products| == LowStockCount(products) + Count(products, HasBadge(InStock))
  {
    CountSame(products, IsOutOfStock, HasBadge(OutOfStock));
    CountSplit(products, IsLowStock, HasBadge(OutOfStock), HasBadge(LowStock));
    var all := (p: Product) => true;
    CountSplit(products, all, IsLowStock, HasBadge(InStock));
    CountAll(products, all);
  }

  lemma {:induction false} CountSame(products: seq<Product>, p: Product -> bool, q: Product -> bool)
    requires forall x :: p(x) == q(x)
    ensures Count(products, p) == Count(products, q)
  {
    CountMonotone(products, p, q);
    CountMonotone(products, q, p);
  }
}

=== FILE: login_page.dfy ===
/** The login form: its two field checks, when it posts, and where it goes after. */
module LoginPage {
  import opened Wrappers
  import opened Text
  import opened FormErrors

  datatype LoginForm = LoginForm(email: string, password: string)

  /** The email is missing when it is whitespace only; the password only when empty,
      with no length rule. */
  function Validate(form: LoginForm): (errs: Errors)
    ensures ErrorFor(errs, "email") == (if AllWhitespace(form.email) then Some("Email is required") else None)
    ensures ErrorFor(errs, "password") == (if form.password == "" then Some("Password is required") else None)
    ensures NoErrors(errs) <==> !AllWhitespace(form.email) && form.password != ""
  {
    TrimEmptyIffWhitespace(form.email);
    var e := if Trim(form.email) == "" then Some("Email is required") else None;
    var p := if form.password == "" then Some("Password is required") else None;
    ErrorForTwo("email", e, "password", p, "email");
    ErrorForTwo("email", e, "password", p, "password");
    FieldError("email", e) + FieldError("password", p)
  }

  /** The form posted to the login endpoint, only when it passes the checks. */
  function LoginRequest(form: LoginForm): (r: Option<LoginForm>)
    ensures r.Some? <==> NoErrors(Validate(form))
    ensures r.Some? ==> r.value == form
  {
    if NoErrors(Validate(form)) then Some(form) else None
  }

  const DefaultTarget := "/dashboard"

  /** After login: back to the page that sent the user here, else the dashboard. */
  function RedirectTarget(fromPath: Option<string>): (r: string)
    ensures r == DefaultTarget <==> fromPath.None? || fromPath.value == "" || fromPath.value == DefaultTarget
    ensures fromPath.Some? && fromPath.value != "" ==> r == fromPath.value
    ensures r != ""
  {
    if fromPath.None? || fromPath.value == "" then DefaultTarget else fromPath.value
  }

  /** A one-character password is enough for the client. */
  lemma NoPasswordLengthRule()
    ensures LoginRequest(LoginForm("a@b.c", "x")).Some?
  {
    assert "a@b.c"[0] == 'a' && !IsJsWhitespace('a');
  }
}

=== FILE: profile_page.dfy ===
/** The profile page: its name check, what a submit does, and how the signed-in
    user is updated from the server's answer. */
module ProfilePage {
  import opened Wrappers
  import opened Text
  import opened FormErrors
  import opened UserController

  datatype ProfileForm = ProfileForm(name: string, bio: string)

  /** The name is missing when whitespace only, too short when one UTF-16 code unit
      after trimming. */
  function NameError(name: string): (r: Option<string>)
    ensures r == Some("Name is required") <==> AllWhitespace(name)
    ensures r == Some("Name must be at least 2 characters") <==> JsLength(Trim(name)) == 1
    ensures r.None? <==> JsLength(Trim(name)) >= 2
  {
    TrimEmptyIffWhitespace(name);
    if Trim(name) == "" then Some("Name is required")
    else if JsLength(Trim(name)) < 2 then Some("Name must be at least 2 characters")
    else None
  }

  /** Only the name is checked; the bio never is. */
  function Validate(form: ProfileForm): (errs: Errors)
    ensures ErrorFor(errs, "name") == NameError(form.name)
    ensures forall i :: 0 <= i < |errs| ==> errs[i].field == "name"
  {
    FieldError("name", NameError(form.name))
  }

  /** What a submit does: show the first error and send nothing, or send the form. */
  datatype Action = ShowError(message: string) | SendUpdate(body: ProfileBody)

  function Submit(form: ProfileForm): (r: Action)
    ensures r.ShowError? <==> JsLength(Trim(form.name)) < 2
    ensures r.ShowError? ==> Some(r.message) == NameError(form.name)
    ensures r.SendUpdate? ==> r.body == ProfileBody(Some(form.name), Some(form.bio), None, None)
  {
    var errs := Validate(form);
    match FirstError(errs)
    case Some(m) => ShowError(m)
    case None => SendUpdate(ProfileBody(Some(form.name), Some(form.bio), None, None))
  }

  /** The signed-in user as the client keeps it: a JSON object of string fields. */
  type ClientUser = map<string, string>

  /** `{ ...user, name: data.name, bio: data.bio }`; spreading no user adds nothing. */
  function MergeSaved(user: Option<ClientUser>, data: Profile): (r: ClientUser)
    ensures "name" in r && r["name"] == data.name
    ensures "bio" in r && r["bio"] == data.bio
    ensures forall k :: k != "name" && k != "bio" ==> (k in r <==> user.Some? && k in user.value)
    ensures forall k :: k != "name" && k != "bio" && k in r ==> r[k] == user.value[k]
  {
    user.GetOr(map[])["name" := data.name]["bio" := data.bio]
  }

  // ---------------------------------------------------------------- properties

  /** The bio plays no part in the check. */
  lemma BioIsNotValidated(a: ProfileForm, b: ProfileForm)
    requires a.name == b.name
    ensures Validate(a) == Validate(b)
    ensures Submit(a).ShowError? <==> Submit(b).ShowError?
  {
  }

  /** A submitted form ends up in the signed-in user: the server stores the name and
      bio as sent, and every other field of the client's user, such as its email,
      stays as it was. */
  lemma SubmitThenMerge(form: ProfileForm, u: User, user: ClientUser)
    requires Submit(form).SendUpdate?
    ensures var saved := UpdateMe(u, Submit(form).body);
            var merged := MergeSaved(Some(user), saved.response);
            merged["name"] == form.name && merged["bio"] == form.bio
            && saved.saved.email == u.email
            && (forall k :: k in user && k != "name" && k != "bio" ==> k in merged && merged[k] == user[k])
  {
  }

  /** Length is JavaScript's: one emoji is two code units, a long enough name. */
  lemma EmojiNameIsValid()
    ensures NameError("\U{1F600}").None?
  {
    assert !IsJsWhitespace("\U{1F600}"[0]);
    assert Trim("\U{1F600}") == "\U{1F600}";
    JsLengthOfEmoji();
  }
}

=== FILE: register_page.dfy ===
/** The registration form: its three field checks and when it posts the form. */
module RegisterPage {
  import opened Wrappers
  import opened Text
  import opened FormErrors

  datatype RegisterForm = RegisterForm(name: string, email: string, password: string)

  /** A required text field: missing when it is whitespace only. */
  function RequiredError(value: string, message: string): (r: Option<string>)
    ensures r.Some? <==> AllWhitespace(value)
    ensures r.Some? ==> r.value == message
  {
    TrimEmptyIffWhitespace(value);
    if Trim(value) == "" then Some(message) else None
  }

  /** The password is not trimmed: empty is missing, under six UTF-16 code units is too short. */
  function PasswordError(password: string): (r: Option<string>)
    ensures r == Some("Password is required") <==> password == ""
    ensures r == Some("Password must be at least 6 characters") <==> 0 < JsLength(password) < 6
    ensures r.None? <==> JsLength(password) >= 6
  {
    if password == "" then Some("Password is required")
    else if JsLength(password) < 6 then Some("Password must be at least 6 characters")
    else None
  }

  /** Every field is checked, in the order name, email, password. */
  function Validate(form: RegisterForm): (errs: Errors)
    ensures ErrorFor(errs, "name") == RequiredError(form.name, "Name is required")
    ensures ErrorFor(errs, "email") == RequiredError(form.email, "Email is required")
    ensures ErrorFor(errs, "name").Some? <==> AllWhitespace(form.name)
    ensures ErrorFor(errs, "email").Some? <==> AllWhitespace(form.email)
    ensures ErrorFor(errs, "password") == PasswordError(form.password)
    ensures NoErrors(errs) <==> !AllWhitespace(form.name) && !AllWhitespace(form.email) && JsLength(form.password) >= 6
    ensures |errs| <= 3
  {
    var n := RequiredError(form.name, "Name is required");
    var e := RequiredError(form.email, "Email is required");
    var p := PasswordError(form.password);
    ErrorForThree("name", n, "email", e, "password", p, "name");
    ErrorForThree("name", n, "email", e, "password", p, "email");
    ErrorForThree("name", n, "email", e, "password", p, "password");
    FieldError("name", n) + FieldError("email", e) + FieldError("password", p)
  }

  /** The form posted to the register endpoint, only when it passes the checks. */
  function RegisterRequest(form: RegisterForm): (r: Option<RegisterForm>)
    ensures r.Some? <==> NoErrors(Validate(form))
    ensures r.Some? ==> r.value == form
  {
    if NoErrors(Validate(form)) then Some(form) else None
  }

  // ---------------------------------------------------------------- properties

  /** The checks are independent: an empty form has all three errors at once. */
  lemma EmptyFormHasAllErrors()
    ensures Validate(RegisterForm("", "", "")) ==
              [Entry("name", "Name is required"), Entry("email", "Email is required"),
               Entry("password", "Password is required")]
  {
    assert AllWhitespace("");
    assert RequiredError("", "Name is required") == Some("Name is required");
    assert RequiredError("", "Email is required") == Some("Email is required");
    assert PasswordError("") == Some("Password is required");
    assert FieldError("name", Some("Name is required")) == [Entry("name", "Name is required")];
    assert FieldError("email", Some("Email is required")) == [Entry("email", "Email is required")];
    assert FieldError("password", Some("Password is required")) == [Entry("password", "Password is required")];
  }

  /** Surrounding spaces count towards the password's length. */
  lemma PasswordIsNotTrimmed()
    ensures PasswordError("  ab  ").None?
    ensures RegisterRequest(RegisterForm("Ann", "a@b.c", "      ")).Some?
  {
    assert !IsJsWhitespace('A') && !IsJsWhitespace('a');
    assert "Ann"[0] == 'A' && "a@b.c"[0] == 'a';
  }

  /** Length is JavaScript's: three emoji are six code units, a long enough password. */
  lemma EmojiPasswordIsLongEnough()
    ensures PasswordError("\U{1F600}\U{1F600}\U{1F600}").None?
  {
    JsLengthConcat("\U{1F600}", "\U{1F600}");
    JsLengthConcat("\U{1F600}\U{1F600}", "\U{1F600}");
    JsLengthOfEmoji();
  }
}

=== FILE: seqs.dfy ===
/** Order-preserving filtering and counting over sequences, as done by
    JavaScript's `Array.prototype.filter` and `filter(...).length`. */
module Seqs {

  /** `a` can be obtained from `b` by deleting elements, keeping the order of the rest. */
  ghost predicate IsSubsequence<T>(a: seq<T>, b: seq<T>)
    decreases |b|
  {
    if |a| == 0 then true
    else if |b| == 0 then false
    else (a[0] == b[0] && IsSubsequence(a[1..], b[1..])) || IsSubsequence(a, b[1..])
  }

  /** The elements of `xs` that satisfy `p`, in their original order. */
  function Filter<T(!new)>(xs: seq<T>, p: T -> bool): (r: seq<T>)
    ensures |r| <= |xs|
    ensures forall i :: 0 <= i < |r| ==> p(r[i])
  {
    if |xs| == 0 then []
    else if p(xs[0]) then [xs[0]] + Filter(xs[1..], p)
    else Filter(xs[1..], p)
  }

  /** The filter keeps every element that satisfies `p` and nothing else. */
  lemma {:induction false} FilterMembers<T(!new)>(xs: seq<T>, p: T -> bool)
    ensures forall x :: x in Filter(xs, p) <==> x in xs && p(x)
  {
    if |xs| > 0 {
      FilterMembers(xs[1..], p);
      assert xs == [xs[0]] + xs[1..];
    }
  }

  /** The filter keeps every copy of an element that satisfies `p` and no copy of any other. */
  lemma {:induction false} FilterMultiset<T(!new)>(xs: seq<T>, p: T -> bool)
    ensures forall x :: multiset(Filter(xs, p))[x] == if p(x) then multiset(xs)[x] else 0
  {
    if |xs| > 0 {
      FilterMultiset(xs[1..], p);
      assert xs == [xs[0]] + xs[1..];
      assert multiset(xs) == multiset{xs[0]} + multiset(xs[1..]);
      if p(xs[0]) {
        assert multiset(Filter(xs, p)) == multiset{xs[0]} + multiset(Filter(xs[1..], p));
      }
    }
  }

  /** The filter keeps the relative order of what it keeps. */
  lemma {:induction false} FilterIsSubsequence<T(!new)>(xs: seq<T>, p: T -> bool)
    ensures IsSubsequence(Filter(xs, p), xs)
  {
    if |xs| > 0 {
      FilterIsSubsequence(xs[1..], p);
      if p(xs[0]) {
        var r := [xs[0]] + Filter(xs[1..], p);
        assert r[0] == xs[0] && r[1..] == Filter(xs[1..], p);
      }
    }
  }

  /** Sequences with the same multiset have the same members. */
  lemma SameMembers<T>(a: seq<T>, b: seq<T>)
    requires multiset(a) == multiset(b)
    ensures forall x :: x in a <==> x in b
  {
    forall x ensures x in a <==> x in b {
      assert x in a <==> x in multiset(a);
      assert x in b <==> x in multiset(b);
    }
  }

  /** The positions of the elements of `xs` that satisfy `p`. */
  ghost function Positions<T>(xs: seq<T>, p: T -> bool): set<int> {
    set i | 0 <= i < |xs| && p(xs[i])
  }

  /** How many elements of `xs` satisfy `p`: the size of the set of their positions. */
  function Count<T>(xs: seq<T>, p: T -> bool): (n: nat)
    ensures n == |Positions(xs, p)|
    ensures n <= |xs|
    decreases |xs|
  {
    if |xs| == 0 then 0
    else
      var k := |xs| - 1;
      var front := xs[..k];
      var m := Count(front, p);
      var below := Positions(front, p);
      var all := Positions(xs, p);
      if p(xs[k]) then
        assert all == below + {k};
        assert k !in below;
        m + 1
      else
        assert all == below;
        m
  }

  lemma {:induction false} FilterConcat<T(!new)>(a: seq<T>, b: seq<T>, p: T -> bool)
    ensures Filter(a + b, p) == Filter(a, p) + Filter(b, p)
  {
    if |a| == 0 {
      assert a + b == b;
    } else {
      assert (a + b)[0] == a[0] && (a + b)[1..] == a[1..] + b;
      FilterConcat(a[1..], b, p);
    }
  }

  /** Filtering a one-element prefix keeps it exactly when it satisfies `p`. */
  lemma FilterCons<T(!new)>(x: T, xs: seq<T>, p: T -> bool)
    ensures Filter([x] + xs, p) == (if p(x) then [x] else []) + Filter(xs, p)
  {
    assert ([x] + xs)[0] == x && ([x] + xs)[1..] == xs;
  }

  /** The same, for a sequence split into its first element and the rest. */
  lemma FilterFirst<T(!new)>(xs: seq<T>, p: T -> bool)
    requires |xs| > 0
    ensures Filter(xs, p) == (if p(xs[0]) then [xs[0]] else []) + Filter(xs[1..], p)
  {
    assert xs == [xs[0]] + xs[1..];
    FilterCons(xs[0], xs[1..], p);
  }

  /** A filter that every element passes keeps the whole sequence. */
  lemma {:induction false} FilterAll<T(!new)>(xs: seq<T>, p: T -> bool)
    requires forall i :: 0 <= i < |xs| ==> p(xs[i])
    ensures Filter(xs, p) == xs
  {
    if |xs| > 0 {
      FilterAll(xs[1..], p);
      assert xs == [xs[0]] + xs[1..];
    }
  }

  /** Filtering by `p` and then by `q` is filtering by their conjunction `pq`. */
  lemma {:induction false} FilterFilter<T(!new)>(xs: seq<T>, p: T -> bool, q: T -> bool, pq: T -> bool)
    requires forall x :: pq(x) == (p(x) && q(x))
    ensures Filter(Filter(xs, p), q) == Filter(xs, pq)
  {
    if |xs| > 0 {
      FilterFilter(xs[1..], p, q, pq);
      if p(xs[0]) {
        FilterCons(xs[0], Filter(xs[1..], p), q);
      }
    }
  }

  /** Counting is monotone in the predicate. */
  lemma {:induction false} CountMonotone<T>(xs: seq<T>, p: T -> bool, q: T -> bool)
    requires forall x :: p(x) ==> q(x)
    ensures Count(xs, p) <= Count(xs, q)
    decreases |xs|
  {
    if |xs| > 0 {
      CountMonotone(xs[..|xs| - 1], p, q);
    }
  }

  /** Counting by a predicate that is the disjoint union of `q` and `r` adds their counts. */
  lemma {:induction false} CountSplit<T>(xs: seq<T>, p: T -> bool, q: T -> bool, r: T -> bool)
    requires forall x :: p(x) == (q(x) || r(x))
    requires forall x :: !(q(x) && r(x))
    ensures Count(xs, p) == Count(xs, q) + Count(xs, r)
    decreases |xs|
  {
    if |xs| > 0 {
      CountSplit(xs[..|xs| - 1], p, q, r);
    }
  }

  /** When every element satisfies `p`, all of them are counted. */
  lemma {:induction false} CountAll<T>(xs: seq<T>, p: T -> bool)
    requires forall x :: p(x)
    ensures Count(xs, p) == |xs|
    decreases |xs|
  {
    if |xs| > 0 {
      CountAll(xs[..|xs| - 1], p);
    }
  }

  /** The number of elements kept by the filter is the count. */
  lemma {:induction false} CountIsFilterLength<T(!new)>(xs: seq<T>, p: T -> bool)
    ensures Count(xs, p) == |Filter(xs, p)|
    decreases |xs|
  {
    if |xs| > 0 {
      var k := |xs| - 1;
      CountIsFilterLength(xs[..k], p);
      assert xs == xs[..k] + [xs[k]];
      FilterConcat(xs[..k], [xs[k]], p);
      assert [xs[k]][1..] == [];
    }
  }

  /** The position of the first occurrence of `x` in `xs`. */
  function IndexOf<T(==)>(xs: seq<T>, x: T): (k: nat)
    requires x in xs
    ensures k < |xs| && xs[k] == x
    ensures x !in xs[..k]
    ensures forall j :: 0 <= j < k ==> xs[j] != x
  {
    if xs[0] == x then 0
    else
      var k := 1 + IndexOf(xs[1..], x);
      assert xs[..k] == [xs[0]] + xs[1..][..k - 1];
      k
  }

  /** The first position holding `x` is its index. */
  lemma IndexOfIs<T>(xs: seq<T>, x: T, k: nat)
    requires k < |xs| && xs[k] == x
    requires forall j :: 0 <= j < k ==> xs[j] != x
    ensures IndexOf(xs, x) == k
  {
  }

  /** No element occurs twice. */
  predicate NoDuplicates<T(==)>(xs: seq<T>) {
    forall i, j :: 0 <= i < j < |xs| ==> xs[i] != xs[j]
  }
}

=== FILE: task_controller.dfy ===
/** The backend task controller: list, create, update and delete, each scoped
    to the authenticated caller, as transitions on an abstract task store. */
module TaskController {
  import opened Wrappers
  import opened Seqs
  import opened Text
  import opened UserController

  /** A storage-generated document identifier. */
  type TaskId = nat

  datatype Task = Task(
    id: TaskId,
    owner: UserId,
    title: string,
    description: string,
    status: string,
    createdAt: int)

  /** Every task document in the collection, in storage order. */
  type Store = seq<Task>

  /** The three status values the controller recognises. */
  const Statuses: set<string> := {"pending", "in-progress", "completed"}

  predicate IsStatus(s: string) {
    s in Statuses
  }

  lemma StatusesAreThree()
    ensures forall s :: IsStatus(s) <==> s == "pending" || s == "in-progress" || s == "completed"
    ensures |Statuses| == 3
  {
    assert "pending" != "in-progress" && "pending" != "completed" && "in-progress" != "completed";
  }

  // ---------------------------------------------------------------- list

  /** The `search` and `status` query-string parameters; `None` when not sent. */
  datatype ListParams = ListParams(search: Option<string>, status: Option<string>)

  /** The document query the controller builds before calling storage. */
  datatype TaskQuery = TaskQuery(owner: UserId, status: Option<string>, titleContains: Option<string>)

  /** Builds the query: always the caller's tasks; a status constraint only for one
      of the three values; a title constraint only for a non-empty search term. */
  function BuildQuery(u: UserId, params: ListParams): (q: TaskQuery)
    ensures q.owner == u
    ensures q.status.Some? <==> params.status.Some? && IsStatus(params.status.value)
    ensures q.status.Some? ==> q.status == params.status
    ensures q.titleContains.Some? <==> params.search.Some? && params.search.value != ""
    ensures q.titleContains.Some? ==> q.titleContains == params.search
  {
    var status := if params.status.Some? && params.status.value != "" && IsStatus(params.status.value)
                  then params.status else None;
    var search := if params.search.Some? && params.search.value != "" then params.search else None;
    TaskQuery(u, status, search)
  }

  /** How storage evaluates the query on one document (the title pattern is read
      as a plain case-insensitive substring). */
  function Satisfies(t: Task, q: TaskQuery): (b: bool)
    ensures b ==> t.owner == q.owner
    ensures b && q.status.Some? ==> t.status == q.status.value
    ensures b && q.titleContains.Some? ==> exists k :: OccursAt(Lower(t.title), Lower(q.titleContains.value), k)
    ensures t.owner == q.owner && q.status.None? && q.titleContains.None? ==> b
  {
    && t.owner == q.owner
    && (q.status.Some? ==> t.status == q.status.value)
    && (q.titleContains.Some? ==> ContainsIgnoreCase(t.title, q.titleContains.value))
  }

  function SatisfiesQuery(q: TaskQuery): Task -> bool {
    t => Satisfies(t, q)
  }

  /** What a listing promises about one task, stated on the request itself. */
  predicate Listed(t: Task, u: UserId, params: ListParams) {
    && t.owner == u
    && (params.status.Some? && IsStatus(params.status.value) ==> t.status == params.status.value)
    && (params.search.Some? && params.search.value != "" ==> ContainsIgnoreCase(t.title, params.search.value))
  }

  /** Ordered by creation time, newest first. */
  predicate NewestFirst(ts: seq<Task>) {
    forall i, j :: 0 <= i < j < |ts| ==> ts[i].createdAt >= ts[j].createdAt
  }

  /** In a newest-first list the head is at least as new as everything after it. */
  lemma HeadIsNewest(ts: seq<Task>)
    requires NewestFirst(ts) && |ts| > 0
    ensures forall x :: x in ts[1..] ==> ts[0].createdAt >= x.createdAt
  {
    forall x | x in ts[1..] ensures ts[0].createdAt >= x.createdAt {
      var k :| 0 <= k < |ts[1..]| && ts[1..][k] == x;
      assert ts[k + 1] == x;
    }
  }

  function InsertByDate(t: Task, ts: seq<Task>): (r: seq<Task>)
    requires NewestFirst(ts)
    ensures NewestFirst(r)
    ensures multiset(r) == multiset(ts) + multiset{t}
    ensures forall x :: x in r ==> x == t || x in ts
  {
    if |ts| == 0 || t.createdAt >= ts[0].createdAt then
      assert forall j :: 0 <= j < |ts| ==> t.createdAt >= ts[j].createdAt by {
        forall j | 0 <= j < |ts| ensures t.createdAt >= ts[j].createdAt {
          if j > 0 { assert ts[0].createdAt >= ts[j].createdAt; }
        }
      }
      ConsNewest(t, ts);
      [t] + ts
    else
      var rest := InsertByDate(t, ts[1..]);
      assert ts == [ts[0]] + ts[1..];
      HeadIsNewest(ts);
      assert forall j :: 0 <= j < |rest| ==> ts[0].createdAt >= rest[j].createdAt by {
        forall j | 0 <= j < |rest| ensures ts[0].createdAt >= rest[j].createdAt {
          assert rest[j] in rest;
        }
      }
      ConsNewest(ts[0], rest);
      [ts[0]] + rest
  }

  /** A task at least as new as all of a newest-first list can go in front of it. */
  lemma ConsNewest(x: Task, ts: seq<Task>)
    requires NewestFirst(ts)
    requires forall j :: 0 <= j < |ts| ==> x.createdAt >= ts[j].createdAt
    ensures NewestFirst([x] + ts)
  {
    var r := [x] + ts;
    forall i, j | 0 <= i < j < |r| ensures r[i].createdAt >= r[j].createdAt {
      assert r[j] == ts[j - 1];
      if i > 0 { assert r[i] == ts[i - 1]; }
    }
  }

  function SortNewestFirst(ts: seq<Task>): (r: seq<Task>)
    ensures NewestFirst(r)
    ensures multiset(r) == multiset(ts)
  {
    if |ts| == 0 then []
    else
      assert ts == [ts[0]] + ts[1..];
      InsertByDate(ts[0], SortNewestFirst(ts[1..]))
  }

  /** The built query selects exactly the tasks the listing promises. */
  lemma QueryMeansListed(t: Task, u: UserId, params: ListParams)
    ensures SatisfiesQuery(BuildQuery(u, params))(t) <==> Listed(t, u, params)
  {
  }

  /** GET /api/tasks: the caller's matching tasks, newest first. */
  function GetTasks(s: Store, u: UserId, params: ListParams): (r: seq<Task>)
    ensures forall i :: 0 <= i < |r| ==> r[i].owner == u
    ensures forall t :: t in r <==> t in s && Listed(t, u, params)
    ensures multiset(r) == multiset(Filter(s, SatisfiesQuery(BuildQuery(u, params))))
    ensures NewestFirst(r)
  {
    var keep := SatisfiesQuery(BuildQuery(u, params));
    var matching := Filter(s, keep);
    var r := SortNewestFirst(matching);
    ListingMembers(s, u, params);
    forall i | 0 <= i < |r| ensures r[i].owner == u {
      assert r[i] in r;
    }
    r
  }

  /** The sorted matches hold exactly the stored tasks the listing promises. */
  lemma ListingMembers(s: Store, u: UserId, params: ListParams)
    ensures forall t :: t in SortNewestFirst(Filter(s, SatisfiesQuery(BuildQuery(u, params))))
                   <==> t in s && Listed(t, u, params)
  {
    var keep := SatisfiesQuery(BuildQuery(u, params));
    var matching := Filter(s, keep);
    SameMembers(SortNewestFirst(matching), matching);
    FilterMembers(s, keep);
    forall t ensures keep(t) <==> Listed(t, u, params) {
      QueryMeansListed(t, u, params);
    }
  }

  // ---------------------------------------------------------------- errors

  /** The controller's error outcomes; each leaves the store as it was. */
  datatype TaskError = TitleRequired | TaskNotFound | InvalidTaskId {
    /** The HTTP status: 404 for a missing task, 400 for every other error. */
    function Code(): (r: int)
      ensures r == 404 <==> this == TaskNotFound
      ensures r == 400 <==> this != TaskNotFound
    {
      match this
      case TitleRequired => 400
      case TaskNotFound => 404
      case InvalidTaskId => 400
    }

    /** The `message` of the JSON reply; each error has its own. */
    function Message(): (r: string)
      ensures r == "Title is required" <==> this == TitleRequired
      ensures r == "Task not found" <==> this == TaskNotFound
      ensures r == "Invalid task id" <==> this == InvalidTaskId
    {
      match this
      case TitleRequired => "Title is required"
      case TaskNotFound => "Task not found"
      case InvalidTaskId => "Invalid task id"
    }
  }

  /** A transition: the store afterwards and the response. */
  datatype Step<T> = Step(store: Store, result: Result<T, TaskError>)

  // ---------------------------------------------------------------- create

  /** The request body of POST /api/tasks; `None` for a field not sent. */
  datatype NewTask = NewTask(title: Option<string>, description: Option<string>, status: Option<string>)

  /** POST /api/tasks. `newId` and `now` are what storage assigns on insert. */
  function CreateTask(s: Store, u: UserId, body: NewTask, newId: TaskId, now: int): (r: Step<Task>)
    ensures r.result.Err? <==> body.title.None? || body.title.value == ""
    ensures r.result.Err? ==> r.result.error == TitleRequired && r.store == s
    ensures r.result.Ok? ==> r.store == s + [r.result.value]
    ensures r.result.Ok? ==>
      var t := r.result.value;
      && t.id == newId && t.owner == u && t.createdAt == now
      && t.title == body.title.value
      && t.description == body.description.GetOr("")
      && t.status == (if body.status.GetOr("") == "" then "pending" else body.status.value)
  {
    if body.title.None? || body.title.value == "" then Step(s, Err(TitleRequired))
    else
      var description := if body.description.Some? && body.description.value != "" then body.description.value else "";
      var status := if body.status.Some? && body.status.value != "" then body.status.value else "pending";
      var t := Task(newId, u, body.title.value, description, status, now);
      Step(s + [t], Ok(t))
  }

  // ---------------------------------------------------------------- update and delete

  /** The `:id` route parameter as the storage driver sees it: an identifier, or
      text that cannot be cast to one. */
  datatype IdParam = WellFormed(id: TaskId) | Malformed(raw: string)

  predicate IsTarget(t: Task, u: UserId, id: TaskId) {
    t.id == id && t.owner == u
  }

  /** `findOne({_id: id, user: u})`: the first task with that id that the caller owns. */
  function FindOwned(s: Store, u: UserId, id: TaskId): (r: Option<Task>)
    ensures r.Some? ==> r.value in s && IsTarget(r.value, u, id)
    ensures r.None? ==> forall i :: 0 <= i < |s| ==> !IsTarget(s[i], u, id)
  {
    if |s| == 0 then None
    else if IsTarget(s[0], u, id) then Some(s[0])
    else
      var r := FindOwned(s[1..], u, id);
      assert r.None? ==> forall i :: 0 <= i < |s| ==> !IsTarget(s[i], u, id) by {
        if r.None? {
          forall i | 0 <= i < |s| ensures !IsTarget(s[i], u, id) {
            if i > 0 { assert s[i] == s[1..][i - 1]; }
          }
        }
      }
      r
  }

  /** The request body of PUT /api/tasks/:id; `None` for a field not sent. */
  datatype TaskPatch = TaskPatch(title: Option<string>, description: Option<string>, status: Option<string>)

  /** Field-wise overwrite: title and description whenever sent, status only with one
      of the three values; identity, owner and creation time never change. */
  function ApplyPatch(t: Task, p: TaskPatch): (r: Task)
    ensures r.id == t.id && r.owner == t.owner && r.createdAt == t.createdAt
    ensures r.title == p.title.GetOr(t.title)
    ensures r.description == p.description.GetOr(t.description)
    ensures r.status == (if p.status.Some? && IsStatus(p.status.value) then p.status.value else t.status)
  {
    var t1 := if p.title.Some? then t.(title := p.title.value) else t;
    var t2 := if p.description.Some? then t1.(description := p.description.value) else t1;
    if p.status.Some? && IsStatus(p.status.value) then t2.(status := p.status.value) else t2
  }

  /** `task.save()` after the patch: the located task is replaced in place. */
  function ReplaceOwned(s: Store, u: UserId, id: TaskId, p: TaskPatch): (r: Store)
    ensures |r| == |s|
    ensures forall i :: 0 <= i < |s| ==> r[i] == s[i] || (IsTarget(s[i], u, id) && r[i] == ApplyPatch(s[i], p))
    ensures FindOwned(s, u, id).None? ==> r == s
    ensures FindOwned(s, u, id).Some? ==> ApplyPatch(FindOwned(s, u, id).value, p) in r
  {
    if |s| == 0 then s
    else if IsTarget(s[0], u, id) then
      assert s == [s[0]] + s[1..];
      [ApplyPatch(s[0], p)] + s[1..]
    else
      assert s == [s[0]] + s[1..];
      [s[0]] + ReplaceOwned(s[1..], u, id, p)
  }

  /** `r` is `s` with exactly the element at position `i` taken out. */
  predicate RemovedAt(s: Store, r: Store, i: int) {
    0 <= i < |s| && r == s[..i] + s[i + 1..]
  }

  /** `task.deleteOne()`: the located task is removed, the rest keep their order. */
  function RemoveOwned(s: Store, u: UserId, id: TaskId): (r: Store)
    ensures FindOwned(s, u, id).None? ==> r == s
    ensures FindOwned(s, u, id).Some? ==> |r| == |s| - 1
  {
    if |s| == 0 then s
    else if IsTarget(s[0], u, id) then s[1..]
    else [s[0]] + RemoveOwned(s[1..], u, id)
  }

  /** The removal takes out exactly the located task, at its position. */
  lemma {:induction false} RemoveOwnedAt(s: Store, u: UserId, id: TaskId)
    requires FindOwned(s, u, id).Some?
    ensures exists i :: RemovedAt(s, RemoveOwned(s, u, id), i) && s[i] == FindOwned(s, u, id).value
    decreases |s|, 1
  {
    if IsTarget(s[0], u, id) {
      assert s[..0] + s[1..] == s[1..];
      assert RemovedAt(s, RemoveOwned(s, u, id), 0);
    } else {
      RemoveOwnedAtTail(s, u, id);
    }
  }

  /** The located task is not the first one: it is removed from the rest. */
  lemma {:induction false} RemoveOwnedAtTail(s: Store, u: UserId, id: TaskId)
    requires FindOwned(s, u, id).Some? && !IsTarget(s[0], u, id)
    ensures exists i :: RemovedAt(s, RemoveOwned(s, u, id), i) && s[i] == FindOwned(s, u, id).value
    decreases |s|, 0
  {
    RemoveOwnedAt(s[1..], u, id);
    var rest := RemoveOwned(s[1..], u, id);
    assert RemoveOwned(s, u, id) == [s[0]] + rest;
    var i :| RemovedAt(s[1..], rest, i) && s[1..][i] == FindOwned(s[1..], u, id).value;
    RemovedAtCons(s, rest, i);
  }

  /** Removing from the tail is removing one position further on. */
  lemma RemovedAtCons(s: Store, r: Store, i: int)
    requires |s| > 0 && RemovedAt(s[1..], r, i)
    ensures RemovedAt(s, [s[0]] + r, i + 1) && s[i + 1] == s[1..][i]
  {
    assert s[..i + 1] == [s[0]] + s[1..][..i];
    assert s[i + 2..] == s[1..][i + 1..];
  }

  /** Removing one position takes exactly that element out of the multiset. */
  lemma RemovedAtMultiset(s: Store, r: Store, i: int)
    requires RemovedAt(s, r, i)
    ensures multiset(r) == multiset(s) - multiset{s[i]}
  {
    assert s == s[..i] + [s[i]] + s[i + 1..];
  }

  /** PUT /api/tasks/:id. */
  function UpdateTask(s: Store, u: UserId, idp: IdParam, p: TaskPatch): (r: Step<Task>)
    ensures r.result.Err? ==> r.store == s
    ensures r.result.Ok? <==> idp.WellFormed? && exists i :: 0 <= i < |s| && IsTarget(s[i], u, idp.id)
    ensures idp.Malformed? ==> r.result == Err(InvalidTaskId)
    ensures idp.WellFormed? ==>
      (r.result == Err(TaskNotFound) <==> forall i :: 0 <= i < |s| ==> !IsTarget(s[i], u, idp.id))
    ensures |r.store| == |s|
    ensures forall i :: 0 <= i < |s| ==>
      r.store[i] == s[i] || (IsTarget(s[i], u, idp.id) && r.store[i] == ApplyPatch(s[i], p))
    ensures r.result.Ok? ==>
      && IsTarget(r.result.value, u, idp.id)
      && r.result.value in r.store
      && exists t :: t in s && IsTarget(t, u, idp.id) && r.result.value == ApplyPatch(t, p)
  {
    match idp
    case Malformed(_) => Step(s, Err(InvalidTaskId))
    case WellFormed(id) =>
      match FindOwned(s, u, id)
      case None => Step(s, Err(TaskNotFound))
      case Some(t) =>
        var s' := ReplaceOwned(s, u, id, p);
        Step(s', Ok(ApplyPatch(t, p)))
  }

  /** DELETE /api/tasks/:id; the success body is the confirmation message. */
  function DeleteTask(s: Store, u: UserId, idp: IdParam): (r: Step<string>)
    ensures r.result.Err? ==> r.store == s
    ensures r.result.Ok? <==> idp.WellFormed? && exists i :: 0 <= i < |s| && IsTarget(s[i], u, idp.id)
    ensures idp.Malformed? ==> r.result == Err(InvalidTaskId)
    ensures idp.WellFormed? ==>
      (r.result == Err(TaskNotFound) <==> forall i :: 0 <= i < |s| ==> !IsTarget(s[i], u, idp.id))
    ensures r.result.Ok? ==>
      && r.result.value == "Task removed"
      && |r.store| == |s| - 1
      && exists i :: RemovedAt(s, r.store, i) && IsTarget(s[i], u, idp.id)
  {
    match idp
    case Malformed(_) => Step(s, Err(InvalidTaskId))
    case WellFormed(id) =>
      match FindOwned(s, u, id)
      case None => Step(s, Err(TaskNotFound))
      case Some(t) =>
        RemoveOwnedAt(s, u, id);
        Step(RemoveOwned(s, u, id), Ok("Task removed"))
  }
}

=== FILE: task_form.dfy ===
/** The task form: its fields, how it is filled from the task chosen for editing,
    its title check, and when it hands the form to the page. */
module TaskForm {
  import opened Wrappers
  import opened Text
  import opened FormErrors
  import opened UserController
  import opened TaskController

  datatype Form = Form(title: string, description: string, status: string)

  /** The empty form: no title, no description, status "pending". */
  const InitialForm := Form("", "", "pending")

  /** The form shown for `editableTask`: its fields, with an empty status falling
      back to "pending" (an empty title or description falls back to "", which is
      the same string); the initial form when nothing is being edited. */
  function LoadForm(editableTask: Option<Task>): (r: Form)
    ensures editableTask.None? ==> r == InitialForm
    ensures editableTask.Some? ==>
              r.title == editableTask.value.title
              && r.description == editableTask.value.description
              && (r.status == editableTask.value.status || (editableTask.value.status == "" && r.status == "pending"))
    ensures r.status != ""
  {
    match editableTask
    case None => InitialForm
    case Some(t) => Form(t.title, t.description, if t.status == "" then "pending" else t.status)
  }

  /** The title check: whitespace only is missing, under three UTF-16 code units
      after trimming is too short. */
  function TitleError(title: string): (r: Option<string>)
    ensures r == Some("Title is required") <==> AllWhitespace(title)
    ensures r == Some("Title must be at least 3 characters") <==> !AllWhitespace(title) && JsLength(Trim(title)) < 3
    ensures r.None? <==> JsLength(Trim(title)) >= 3
  {
    TrimEmptyIffWhitespace(title);
    if Trim(title) == "" then Some("Title is required")
    else if JsLength(Trim(title)) < 3 then Some("Title must be at least 3 characters")
    else None
  }

  function Validate(form: Form): (errs: Errors)
    ensures NoErrors(errs) <==> JsLength(Trim(form.title)) >= 3
    ensures forall i :: 0 <= i < |errs| ==> errs[i].field == "title"
    ensures ErrorFor(errs, "title") == TitleError(form.title)
  {
    var e := TitleError(form.title);
    ErrorForField("title", e, "title");
    assert NoErrors(FieldError("title", e)) <==> e.None?;
    FieldError("title", e)
  }

  /** The form as the user sees it, with the errors of the last check. */
  datatype FormState = FormState(form: Form, errors: Errors)

  /** What a submit does: the new state, and the form handed to the page if any. */
  datatype Submit = Submit(state: FormState, sent: Option<Form>)

  function HandleSubmit(st: FormState): (r: Submit)
    ensures r.sent.Some? <==> JsLength(Trim(st.form.title)) >= 3
    ensures r.sent.Some? ==> r.sent.value == st.form
    ensures r.state.form == st.form
    ensures r.state.errors == Validate(st.form)
  {
    var errs := Validate(st.form);
    if NoErrors(errs) then Submit(FormState(st.form, errs), Some(st.form))
    else Submit(FormState(st.form, errs), None)
  }

  /** The callback the page calls after a successful save. */
  function Reset(st: FormState): (r: FormState)
    ensures r.form == InitialForm && r.errors == st.errors
  {
    FormState(InitialForm, st.errors)
  }

  /** The form state after the edited task changed: loaded and with no errors. */
  function OnEditableTask(editableTask: Option<Task>): (r: FormState)
    ensures r.errors == [] && r.form == LoadForm(editableTask)
  {
    FormState(LoadForm(editableTask), [])
  }

  // ---------------------------------------------------------------- properties

  /** Description and status never produce an error. */
  lemma ValidationReadsOnlyTitle(a: Form, b: Form)
    requires a.title == b.title
    ensures Validate(a) == Validate(b)
  {
  }

  /** The initial form, and so the form after a reset, cannot be submitted. */
  lemma InitialFormIsRejected(st: FormState)
    ensures HandleSubmit(Reset(st)).sent.None?
    ensures ErrorFor(HandleSubmit(Reset(st)).state.errors, "title") == Some("Title is required")
  {
    assert AllWhitespace(InitialForm.title);
  }

  /** The form body the page sends to the create endpoint. */
  function CreateBody(form: Form): (r: NewTask)
    ensures r.title == Some(form.title) && r.description == Some(form.description)
    ensures r.status == Some(form.status)
  {
    NewTask(Some(form.title), Some(form.description), Some(form.status))
  }

  /** A form the client accepts is accepted by the server too, and editing the
      created task shows the same form again. */
  lemma SentFormIsCreated(st: FormState, s: Store, u: UserId, newId: TaskId, now: int)
    requires st.form.status != ""
    requires HandleSubmit(st).sent.Some?
    ensures CreateTask(s, u, CreateBody(st.form), newId, now).result.Ok?
    ensures LoadForm(Some(CreateTask(s, u, CreateBody(st.form), newId, now).result.value)) == st.form
  {
    assert st.form.title != "";
  }

  /** Length is JavaScript's: two emoji are four code units, enough for a title. */
  lemma EmojiTitleIsValid()
    ensures TitleError("\U{1F600}\U{1F600}").None?
  {
    var s := "\U{1F600}\U{1F600}";
    assert !IsJsWhitespace(s[0]) && !IsJsWhitespace(s[1]);
    assert Trim(s) == s;
    JsLengthConcat("\U{1F600}", "\U{1F600}");
    JsLengthOfEmoji();
  }
}

=== FILE: task_list.dfy ===
/** The task list: what it shows for no tasks, and for each task its badge colour,
    its status label and whether its description appears. */
module TaskList {
  import opened Wrappers
  import opened Seqs
  import opened Text
  import opened TaskController

  const EmptyMessage := "No tasks found. Create your first task."

  /** The badge colour for a status. */
  function StatusBadgeClass(status: string): (r: string)
    ensures status == "completed" <==> r == "bg-success"
    ensures status == "in-progress" <==> r == "bg-warning text-dark"
    ensures status != "completed" && status != "in-progress" <==> r == "bg-secondary"
  {
    match status
    case "completed" => "bg-success"
    case "in-progress" => "bg-warning text-dark"
    case _ => "bg-secondary"
  }

  /** `status.replace("-", " ")`: a string pattern replaces its first occurrence only. */
  function StatusLabel(status: string): (r: string)
    ensures '-' !in status ==> r == status
    ensures '-' in status ==> r == status[IndexOf(status, '-') := ' ']
  {
    ReplaceFirst(status, '-', ' ')
  }

  datatype Row = Row(id: TaskId, title: string, badgeClass: string, statusLabel: string, description: Option<string>)

  datatype View = Message(text: string) | Rows(rows: seq<Row>)

  function RenderRow(t: Task): (r: Row)
    ensures r.id == t.id && r.title == t.title
    ensures r.badgeClass == StatusBadgeClass(t.status) && r.statusLabel == StatusLabel(t.status)
    ensures r.description.None? <==> t.description == ""
    ensures r.description.Some? ==> r.description.value == t.description
  {
    Row(t.id, t.title, StatusBadgeClass(t.status), StatusLabel(t.status),
        if t.description == "" then None else Some(t.description))
  }

  function Render(tasks: seq<Task>): (r: View)
    ensures r.Message? <==> tasks == []
    ensures r.Message? ==> r.text == EmptyMessage
    ensures r.Rows? ==> |r.rows| == |tasks| && forall i :: 0 <= i < |tasks| ==> r.rows[i] == RenderRow(tasks[i])
  {
    if |tasks| == 0 then Message(EmptyMessage)
    else Rows(seq(|tasks|, i requires 0 <= i < |tasks| => RenderRow(tasks[i])))
  }

  // ---------------------------------------------------------------- properties

  /** The three stored statuses get three different badges. */
  lemma BadgesDistinguishStatuses(a: string, b: string)
    requires IsStatus(a) && IsStatus(b) && a != b
    ensures StatusBadgeClass(a) != StatusBadgeClass(b)
  {
  }

  /** The first dash becomes a space, whatever follows it. */
  lemma FirstDashLabel(before: string, after: string)
    requires '-' !in before
    ensures StatusLabel(before + "-" + after) == before + " " + after
  {
    var s := before + "-" + after;
    var k := |before|;
    assert s[k] == '-';
    assert forall j :: 0 <= j < k ==> s[j] == before[j];
    IndexOfIs(s, '-', k);
    assert s[k := ' '] == before + " " + after;
  }

  /** The label of the only status with a dash. */
  lemma InProgressLabel()
    ensures StatusLabel("in-progress") == "in progress"
  {
    assert "in-progress" == "in" + "-" + "progress";
    assert "in progress" == "in" + " " + "progress";
    FirstDashLabel("in", "progress");
  }

  /** Statuses without a dash are their own labels. */
  lemma PlainLabels()
    ensures StatusLabel("pending") == "pending"
    ensures StatusLabel("completed") == "completed"
  {
    assert forall i :: 0 <= i < |"pending"| ==> "pending"[i] != '-';
    assert forall i :: 0 <= i < |"completed"| ==> "completed"[i] != '-';
  }

  /** Only the first of two dashes becomes a space. */
  lemma TwoDashLabel()
    ensures StatusLabel("a-b-c") == "a b-c"
  {
    assert "a-b-c" == "a" + "-" + "b-c";
    assert "a b-c" == "a" + " " + "b-c";
    FirstDashLabel("a", "b-c");
  }

  /** A label keeps every dash after the first. */
  lemma LabelKeepsLaterDashes(status: string, i: int)
    requires 0 <= i < |status| && status[i] == '-'
    requires exists j :: 0 <= j < i && status[j] == '-'
    ensures StatusLabel(status)[i] == '-'
  {
    var j :| 0 <= j < i && status[j] == '-';
    assert IndexOf(status, '-') <= j;
  }
}

=== FILE: task_ownership.dfy ===
/** Properties of the task controller that relate several calls: a caller only
    ever observes or changes the tasks it owns, ids stay unique, and deleted
    tasks are gone for good. */
module TaskOwnership {
  import opened Wrappers
  import opened Seqs
  import opened Text
  import opened UserController
  import opened TaskController

  function OwnedBy(u: UserId): Task -> bool {
    (t: Task) => t.owner == u
  }

  function NotOwnedBy(u: UserId): Task -> bool {
    (t: Task) => t.owner != u
  }

  /** The caller's tasks, in storage order. */
  function Mine(s: Store, u: UserId): seq<Task> {
    Filter(s, OwnedBy(u))
  }

  /** Everybody else's tasks, in storage order. */
  function Others(s: Store, u: UserId): seq<Task> {
    Filter(s, NotOwnedBy(u))
  }

  // ---------------------------------------------------------------- the store helpers

  lemma {:induction false} FindOwnedSeesOnlyMine(s: Store, u: UserId, id: TaskId)
    ensures FindOwned(s, u, id) == FindOwned(Mine(s, u), u, id)
    decreases |s|
  {
    if |s| > 0 {
      FilterFirst(s, OwnedBy(u));
      FindOwnedSeesOnlyMine(s[1..], u, id);
      var m := Mine(s, u);
      if s[0].owner == u {
        assert m == [s[0]] + Mine(s[1..], u);
        assert m[0] == s[0] && m[1..] == Mine(s[1..], u);
      } else {
        assert m == Mine(s[1..], u);
      }
    }
  }

  lemma ReplaceOwnedCons(x: Task, xs: Store, u: UserId, id: TaskId, p: TaskPatch)
    ensures ReplaceOwned([x] + xs, u, id, p)
         == if IsTarget(x, u, id) then [ApplyPatch(x, p)] + xs else [x] + ReplaceOwned(xs, u, id, p)
  {
    assert ([x] + xs)[0] == x && ([x] + xs)[1..] == xs;
  }

  lemma RemoveOwnedCons(x: Task, xs: Store, u: UserId, id: TaskId)
    ensures RemoveOwned([x] + xs, u, id) == if IsTarget(x, u, id) then xs else [x] + RemoveOwned(xs, u, id)
  {
    assert ([x] + xs)[0] == x && ([x] + xs)[1..] == xs;
  }

  /** A patched task is still the caller's, so patching commutes with taking the caller's tasks. */
  lemma {:induction false} ReplaceOwnedKeepsMine(s: Store, u: UserId, id: TaskId, p: TaskPatch)
    ensures Mine(ReplaceOwned(s, u, id, p), u) == ReplaceOwned(Mine(s, u), u, id, p)
    decreases |s|
  {
    if |s| > 0 {
      var x, xs := s[0], s[1..];
      assert s == [x] + xs;
      ReplaceOwnedCons(x, xs, u, id, p);
      FilterCons(x, xs, OwnedBy(u));
      if IsTarget(x, u, id) {
        FilterCons(ApplyPatch(x, p), xs, OwnedBy(u));
        ReplaceOwnedCons(x, Mine(xs, u), u, id, p);
      } else {
        ReplaceOwnedKeepsMine(xs, u, id, p);
        FilterCons(x, ReplaceOwned(xs, u, id, p), OwnedBy(u));
        ReplaceOwnedCons(x, Mine(xs, u), u, id, p);
      }
    }
  }

  lemma {:induction false} ReplaceOwnedKeepsOthers(s: Store, u: UserId, id: TaskId, p: TaskPatch)
    ensures Others(ReplaceOwned(s, u, id, p), u) == Others(s, u)
    decreases |s|
  {
    if |s| > 0 {
      var x, xs := s[0], s[1..];
      assert s == [x] + xs;
      ReplaceOwnedCons(x, xs, u, id, p);
      FilterCons(x, xs, NotOwnedBy(u));
      if IsTarget(x, u, id) {
        FilterCons(ApplyPatch(x, p), xs, NotOwnedBy(u));
      } else {
        ReplaceOwnedKeepsOthers(xs, u, id, p);
        FilterCons(x, ReplaceOwned(xs, u, id, p), NotOwnedBy(u));
      }
    }
  }

  /** Removal commutes with taking the caller's tasks. */
  lemma {:induction false} RemoveOwnedKeepsMine(s: Store, u: UserId, id: TaskId)
    ensures Mine(RemoveOwned(s, u, id), u) == RemoveOwned(Mine(s, u), u, id)
    decreases |s|
  {
    if |s| > 0 {
      var x, xs := s[0], s[1..];
      assert s == [x] + xs;
      RemoveOwnedCons(x, xs, u, id);
      FilterCons(x, xs, OwnedBy(u));
      RemoveOwnedCons(x, Mine(xs, u), u, id);
      if !IsTarget(x, u, id) {
        RemoveOwnedKeepsMine(xs, u, id);
        FilterCons(x, RemoveOwned(xs, u, id), OwnedBy(u));
      }
    }
  }

  lemma {:induction false} RemoveOwnedKeepsOthers(s: Store, u: UserId, id: TaskId)
    ensures Others(RemoveOwned(s, u, id), u) == Others(s, u)
    decreases |s|
  {
    if |s| > 0 {
      var x, xs := s[0], s[1..];
      assert s == [x] + xs;
      RemoveOwnedCons(x, xs, u, id);
      FilterCons(x, xs, NotOwnedBy(u));
      if !IsTarget(x, u, id) {
        RemoveOwnedKeepsOthers(xs, u, id);
        FilterCons(x, RemoveOwned(xs, u, id), NotOwnedBy(u));
      }
    }
  }

  // ---------------------------------------------------------------- what a caller can observe

  /** Listing depends on the caller's own tasks only. */
  lemma ListSeesOnlyMine(s: Store, s2: Store, u: UserId, params: ListParams)
    requires Mine(s, u) == Mine(s2, u)
    ensures GetTasks(s, u, params) == GetTasks(s2, u, params)
  {
    var keep := SatisfiesQuery(BuildQuery(u, params));
    assert forall t :: keep(t) == (OwnedBy(u)(t) && keep(t));
    FilterFilter(s, OwnedBy(u), keep, keep);
    FilterFilter(s2, OwnedBy(u), keep, keep);
  }

  /** An update's response, and what it does to the caller's tasks, depend on the
      caller's own tasks only: a task of someone else's is the same 404 as a missing one. */
  lemma UpdateSeesOnlyMine(s: Store, s2: Store, u: UserId, idp: IdParam, p: TaskPatch)
    requires Mine(s, u) == Mine(s2, u)
    ensures UpdateTask(s, u, idp, p).result == UpdateTask(s2, u, idp, p).result
    ensures Mine(UpdateTask(s, u, idp, p).store, u) == Mine(UpdateTask(s2, u, idp, p).store, u)
  {
    if idp.WellFormed? {
      FindOwnedSeesOnlyMine(s, u, idp.id);
      FindOwnedSeesOnlyMine(s2, u, idp.id);
      ReplaceOwnedKeepsMine(s, u, idp.id, p);
      ReplaceOwnedKeepsMine(s2, u, idp.id, p);
    }
  }

  /** The same for delete. */
  lemma DeleteSeesOnlyMine(s: Store, s2: Store, u: UserId, idp: IdParam)
    requires Mine(s, u) == Mine(s2, u)
    ensures DeleteTask(s, u, idp).result == DeleteTask(s2, u, idp).result
    ensures Mine(DeleteTask(s, u, idp).store, u) == Mine(DeleteTask(s2, u, idp).store, u)
  {
    if idp.WellFormed? {
      FindOwnedSeesOnlyMine(s, u, idp.id);
      FindOwnedSeesOnlyMine(s2, u, idp.id);
      RemoveOwnedKeepsMine(s, u, idp.id);
      RemoveOwnedKeepsMine(s2, u, idp.id);
    }
  }

  // ---------------------------------------------------------------- what a caller can change

  lemma CreateSparesOthers(s: Store, u: UserId, body: NewTask, newId: TaskId, now: int)
    ensures Others(CreateTask(s, u, body, newId, now).store, u) == Others(s, u)
    ensures Mine(CreateTask(s, u, body, newId, now).store, u)
         == Mine(s, u) + (if CreateTask(s, u, body, newId, now).result.Ok?
                          then [CreateTask(s, u, body, newId, now).result.value] else [])
  {
    var r := CreateTask(s, u, body, newId, now);
    if r.result.Ok? {
      FilterConcat(s, [r.result.value], NotOwnedBy(u));
      FilterConcat(s, [r.result.value], OwnedBy(u));
      assert [r.result.value][..0] == [];
    }
  }

  lemma UpdateSparesOthers(s: Store, u: UserId, idp: IdParam, p: TaskPatch)
    ensures Others(UpdateTask(s, u, idp, p).store, u) == Others(s, u)
  {
    if idp.WellFormed? {
      ReplaceOwnedKeepsOthers(s, u, idp.id, p);
    }
  }

  lemma DeleteSparesOthers(s: Store, u: UserId, idp: IdParam)
    ensures Others(DeleteTask(s, u, idp).store, u) == Others(s, u)
  {
    if idp.WellFormed? {
      RemoveOwnedKeepsOthers(s, u, idp.id);
    }
  }

  // ---------------------------------------------------------------- store invariants

  /** Storage never gives two documents the same id. */
  predicate UniqueIds(s: Store) {
    forall i, j :: 0 <= i < j < |s| ==> s[i].id != s[j].id
  }

  lemma CreateKeepsIdsUnique(s: Store, u: UserId, body: NewTask, newId: TaskId, now: int)
    requires UniqueIds(s)
    requires forall i :: 0 <= i < |s| ==> s[i].id != newId
    ensures UniqueIds(CreateTask(s, u, body, newId, now).store)
  {
  }

  lemma UpdateKeepsIdsUnique(s: Store, u: UserId, idp: IdParam, p: TaskPatch)
    requires UniqueIds(s)
    ensures UniqueIds(UpdateTask(s, u, idp, p).store)
  {
    var r := UpdateTask(s, u, idp, p).store;
    forall i, j | 0 <= i < j < |r| ensures r[i].id != r[j].id {
      assert r[i].id == s[i].id && r[j].id == s[j].id;
    }
  }

  /** Where each remaining task came from after removing position `k`. */
  lemma RemovedAtIndex(s: Store, r: Store, k: int)
    requires RemovedAt(s, r, k)
    ensures |r| == |s| - 1
    ensures forall i :: 0 <= i < |r| ==> r[i] == s[if i < k then i else i + 1]
  {
  }

  lemma DeleteKeepsIdsUnique(s: Store, u: UserId, idp: IdParam)
    requires UniqueIds(s)
    ensures UniqueIds(DeleteTask(s, u, idp).store)
  {
    var r := DeleteTask(s, u, idp);
    if r.result.Ok? {
      var k :| RemovedAt(s, r.store, k) && IsTarget(s[k], u, idp.id);
      RemovedAtKeepsUnique(s, r.store, k);
    }
  }

  lemma RemovedAtKeepsUnique(s: Store, r: Store, k: int)
    requires UniqueIds(s) && RemovedAt(s, r, k)
    ensures UniqueIds(r)
  {
    RemovedAtIndex(s, r, k);
    forall i, j | 0 <= i < j < |r| ensures r[i].id != r[j].id {
      var i' := if i < k then i else i + 1;
      var j' := if j < k then j else j + 1;
      assert i' < j' && r[i] == s[i'] && r[j] == s[j'];
    }
  }

  /** With unique ids, a successful delete leaves exactly the tasks with another id. */
  lemma DeleteMembers(s: Store, u: UserId, id: TaskId)
    requires UniqueIds(s)
    requires DeleteTask(s, u, WellFormed(id)).result.Ok?
    ensures forall t :: t in DeleteTask(s, u, WellFormed(id)).store <==> t in s && t.id != id
  {
    var r := DeleteTask(s, u, WellFormed(id)).store;
    var k :| RemovedAt(s, r, k) && IsTarget(s[k], u, id);
    RemovedAtIndex(s, r, k);
    forall t | t in r ensures t in s && t.id != id {
      var j :| 0 <= j < |r| && r[j] == t;
      assert t == s[if j < k then j else j + 1];
    }
    forall t | t in s && t.id != id ensures t in r {
      var j :| 0 <= j < |s| && s[j] == t;
      assert j != k;
      assert t == r[if j < k then j else j - 1];
    }
  }

  /** A successful delete takes exactly one of the caller's tasks with that id out
      of the store. */
  lemma DeleteRemovesOneTask(s: Store, u: UserId, id: TaskId)
    requires DeleteTask(s, u, WellFormed(id)).result.Ok?
    ensures exists t :: t in s && IsTarget(t, u, id)
                     && multiset(DeleteTask(s, u, WellFormed(id)).store) == multiset(s) - multiset{t}
  {
    var r := DeleteTask(s, u, WellFormed(id)).store;
    var k :| RemovedAt(s, r, k) && IsTarget(s[k], u, id);
    RemovedAtMultiset(s, r, k);
  }

  /** After a successful delete no document with that id is left, so no later
      listing can return it. */
  lemma DeletedTaskIsGone(s: Store, u: UserId, id: TaskId, params: ListParams)
    requires UniqueIds(s)
    requires DeleteTask(s, u, WellFormed(id)).result.Ok?
    ensures forall t :: t in DeleteTask(s, u, WellFormed(id)).store ==> t.id != id
    ensures forall t :: t in GetTasks(DeleteTask(s, u, WellFormed(id)).store, u, params) ==> t.id != id
  {
    DeleteMembers(s, u, id);
  }

  /** With unique ids, a successful update leaves the tasks with another id and the
      updated task. */
  lemma UpdateMembers(s: Store, u: UserId, id: TaskId, p: TaskPatch)
    requires UniqueIds(s)
    requires UpdateTask(s, u, WellFormed(id), p).result.Ok?
    ensures forall t :: t in UpdateTask(s, u, WellFormed(id), p).store
                   <==> (t in s && t.id != id) || t == UpdateTask(s, u, WellFormed(id), p).result.value
  {
    var r := UpdateTask(s, u, WellFormed(id), p);
    UpdateKeepsIdsUnique(s, u, WellFormed(id), p);
    forall i | 0 <= i < |s| ensures (s[i].id != id ==> r.store[i] == s[i]) && r.store[i].id == s[i].id {
    }
    RewriteMembers(s, r.store, id, r.result.value);
  }

  /** A store rewritten in place, keeping every id and every task with another id,
      holds the tasks with another id and the one task now carrying `id`. */
  lemma RewriteMembers(s: Store, s': Store, id: TaskId, data: Task)
    requires |s'| == |s| && UniqueIds(s')
    requires forall i :: 0 <= i < |s| ==> (s[i].id != id ==> s'[i] == s[i]) && s'[i].id == s[i].id
    requires data in s' && data.id == id
    ensures forall t :: t in s' <==> (t in s && t.id != id) || t == data
  {
    var jd :| 0 <= jd < |s'| && s'[jd] == data;
    forall t | t in s' ensures (t in s && t.id != id) || t == data {
      var j :| 0 <= j < |s'| && s'[j] == t;
      if s[j].id == id {
        assert j == jd;
      } else {
        assert s'[j] == s[j];
      }
    }
    forall t | t in s && t.id != id ensures t in s' {
      var j :| 0 <= j < |s| && s[j] == t;
      assert s'[j] == t;
    }
  }

  /** Every stored status is one of the three values. */
  predicate StatusesValid(s: Store) {
    forall i :: 0 <= i < |s| ==> IsStatus(s[i].status)
  }

  lemma UpdateKeepsStatusesValid(s: Store, u: UserId, idp: IdParam, p: TaskPatch)
    requires StatusesValid(s)
    ensures StatusesValid(UpdateTask(s, u, idp, p).store)
  {
  }

  /** Create keeps statuses valid only when the body's status is absent, empty or
      one of the three values: create performs no enumeration check. */
  lemma CreateKeepsStatusesValid(s: Store, u: UserId, body: NewTask, newId: TaskId, now: int)
    requires StatusesValid(s)
    ensures StatusesValid(CreateTask(s, u, body, newId, now).store)
        <==> (CreateTask(s, u, body, newId, now).result.Err?
              || body.status.GetOr("") == "" || IsStatus(body.status.value))
  {
    var r := CreateTask(s, u, body, newId, now);
    if r.result.Ok? {
      assert r.store[|s|] == r.result.value;
    }
  }

  /** Applying the same patch twice is applying it once. */
  lemma PatchIdempotent(t: Task, p: TaskPatch)
    ensures ApplyPatch(ApplyPatch(t, p), p) == ApplyPatch(t, p)
  {
  }

  /** A patch with no fields changes nothing. */
  lemma EmptyPatchIsIdentity(t: Task)
    ensures ApplyPatch(t, TaskPatch(None, None, None)) == t
  {
  }

  /** An unrecognised status parameter lists exactly what no status parameter lists. */
  lemma UnknownStatusIsNoFilter(s: Store, u: UserId, search: Option<string>, status: string)
    requires !IsStatus(status)
    ensures GetTasks(s, u, ListParams(search, Some(status))) == GetTasks(s, u, ListParams(search, None))
  {
  }

  /** The search is a case-insensitive substring match on the title. */
  lemma SearchExamples()
    ensures ContainsIgnoreCase("Catalog", "cat")
    ensures ContainsIgnoreCase("scatter", "cat")
    ensures !ContainsIgnoreCase("Dog", "cat")
  {
    assert Lower("cat") == "cat";
    assert Lower("Catalog") == "catalog";
    assert OccursAt("catalog", "cat", 0);
    assert Lower("scatter") == "scatter";
    assert OccursAt("scatter", "cat", 1);
    assert Lower("Dog") == "dog";
    forall k ensures !OccursAt("dog", "cat", k) {
      if k == 0 {
        assert "dog"[0..3] == "dog";
        assert "dog"[0] != "cat"[0];
      }
    }
  }
}

=== FILE: text.dfy ===
/** The string operations the validators and search filters rely on:
    JavaScript's `String.prototype.trim`, `toLowerCase` (restricted to ASCII),
    `includes`, and `replace` with a one-character string pattern. */
module Text {
  import opened Seqs

  /** ECMAScript WhiteSpace and LineTerminator code points: what `trim` removes. */
  predicate IsJsWhitespace(c: char) {
    var n := c as int;
    || n == 0x9 || n == 0xA || n == 0xB || n == 0xC || n == 0xD || n == 0x20
    || n == 0xA0 || n == 0x1680 || (0x2000 <= n <= 0x200A) || n == 0x2028 || n == 0x2029
    || n == 0x202F || n == 0x205F || n == 0x3000 || n == 0xFEFF
  }

  predicate AllWhitespace(s: string) {
    forall i :: 0 <= i < |s| ==> IsJsWhitespace(s[i])
  }

  /** `s` without its leading whitespace. */
  function TrimStart(s: string): (r: string)
    ensures |r| <= |s| && r == s[|s| - |r|..]
    ensures AllWhitespace(s[..|s| - |r|])
    ensures |r| > 0 ==> !IsJsWhitespace(r[0])
  {
    if |s| > 0 && IsJsWhitespace(s[0]) then
      var r := TrimStart(s[1..]);
      var k := |s| - |r|;
      assert s[1..][k - 1..] == s[k..];
      assert forall i :: 0 < i < k ==> s[..k][i] == s[1..][..k - 1][i - 1];
      r
    else s
  }

  /** `s` without its trailing whitespace. */
  function TrimEnd(s: string): (r: string)
    ensures |r| <= |s| && r == s[..|r|]
    ensures AllWhitespace(s[|r|..])
    ensures |r| > 0 ==> !IsJsWhitespace(r[|r| - 1])
  {
    if |s| > 0 && IsJsWhitespace(s[|s| - 1]) then
      var r := TrimEnd(s[..|s| - 1]);
      assert s[|r|..] == s[..|s| - 1][|r|..] + [s[|s| - 1]];
      r
    else s
  }

  /** `r` is the block of `s` starting at `lo`, with only whitespace around it. */
  predicate Framed(s: string, r: string, lo: int) {
    0 <= lo && lo + |r| <= |s| && r == s[lo..lo + |r|]
    && AllWhitespace(s[..lo]) && AllWhitespace(s[lo + |r|..])
  }

  /** `s.trim()`: the block of `s` between its leading and trailing whitespace. */
  function Trim(s: string): (r: string)
    ensures exists lo :: Framed(s, r, lo)
    ensures |r| > 0 ==> !IsJsWhitespace(r[0]) && !IsJsWhitespace(r[|r| - 1])
  {
    var e := TrimEnd(s);
    var r := TrimStart(e);
    var lo := |e| - |r|;
    assert s[..lo] == e[..lo];
    assert s[lo + |r|..] == s[|e|..];
    assert r == s[lo..lo + |r|];
    assert Framed(s, r, lo);
    r
  }

  /** A string trims to "" exactly when it is whitespace only. */
  lemma TrimEmptyIffWhitespace(s: string)
    ensures Trim(s) == "" <==> AllWhitespace(s)
  {
    var r := Trim(s);
    var lo :| Framed(s, r, lo);
    if r == "" {
      forall i | 0 <= i < |s| ensures IsJsWhitespace(s[i]) {
        if i < lo { assert s[..lo][i] == s[i]; } else { assert s[lo..][i - lo] == s[i]; }
      }
    } else {
      assert s[lo] == r[0];
    }
  }

  /** A character outside the Basic Multilingual Plane, which UTF-16 stores as a
      surrogate pair. */
  predicate IsAstral(c: char) {
    c as int > 0xFFFF
  }

  /** JavaScript's `length`: the number of UTF-16 code units, two for an astral
      character and one for any other. */
  function JsLength(s: string): (n: nat)
    ensures |s| <= n <= 2 * |s|
    ensures n == |s| <==> forall i :: 0 <= i < |s| ==> !IsAstral(s[i])
    decreases |s|
  {
    if |s| == 0 then 0
    else
      var k := |s| - 1;
      assert forall i :: 0 <= i < k ==> s[..k][i] == s[i];
      JsLength(s[..k]) + (if IsAstral(s[k]) then 2 else 1)
  }

  /** The length is the number of characters plus one more for each astral one. */
  lemma {:induction false} JsLengthCountsAstral(s: string)
    ensures JsLength(s) == |s| + Count(s, IsAstral)
    decreases |s|
  {
    if |s| > 0 {
      JsLengthCountsAstral(s[..|s| - 1]);
    }
  }

  /** The length of a concatenation is the sum of the lengths. */
  lemma {:induction false} JsLengthConcat(a: string, b: string)
    ensures JsLength(a + b) == JsLength(a) + JsLength(b)
    decreases |b|
  {
    if |b| == 0 {
      assert a + b == a;
    } else {
      var k := |b| - 1;
      assert (a + b)[..|a + b| - 1] == a + b[..k];
      JsLengthConcat(a, b[..k]);
    }
  }

  /** An emoji is one character but two code units. */
  lemma JsLengthOfEmoji()
    ensures |"\U{1F600}"| == 1 && JsLength("\U{1F600}") == 2
    ensures JsLength("a\U{1F600}") == 3
  {
    JsLengthConcat("a", "\U{1F600}");
    assert "a" + "\U{1F600}" == "a\U{1F600}";
  }

  /** ASCII case folding: the part of `toLowerCase` the model keeps. */
  function LowerChar(c: char): (d: char)
    ensures 'A' <= c <= 'Z' ==> d as int == c as int + 32
    ensures !('A' <= c <= 'Z') ==> d == c
  {
    if 'A' <= c <= 'Z' then (c as int + 32) as char else c
  }

  function Lower(s: string): (r: string)
    ensures |r| == |s|
    ensures forall i :: 0 <= i < |s| ==> r[i] == LowerChar(s[i])
  {
    seq(|s|, i requires 0 <= i < |s| => LowerChar(s[i]))
  }

  /** `n` occurs in `h` starting at position `k`. */
  predicate OccursAt(h: string, n: string, k: int) {
    0 <= k <= |h| - |n| && h[k..k + |n|] == n
  }

  /** `h.includes(n)`: `n` occurs in `h` as a contiguous block. */
  function Contains(h: string, n: string): (b: bool)
    ensures b <==> exists k :: OccursAt(h, n, k)
    decreases |h|
  {
    if |n| > |h| then false
    else if h[..|n|] == n then
      assert OccursAt(h, n, 0);
      true
    else
      var b := Contains(h[1..], n);
      if b then
        var k :| OccursAt(h[1..], n, k);
        assert h[k + 1..k + 1 + |n|] == h[1..][k..k + |n|];
        assert OccursAt(h, n, k + 1);
        true
      else
        forall k | OccursAt(h, n, k) ensures OccursAt(h[1..], n, k - 1) {
          assert h[0..|n|] == h[..|n|];
          assert k != 0;
          assert h[1..][k - 1..k - 1 + |n|] == h[k..k + |n|];
        }
        false
  }

  /** Case-insensitive containment, both sides folded as `toLowerCase` does. */
  function ContainsIgnoreCase(h: string, n: string): (b: bool)
    ensures b <==> exists k :: OccursAt(Lower(h), Lower(n), k)
  {
    Contains(Lower(h), Lower(n))
  }

  /** Folding is idempotent. */
  lemma LowerIdempotent(s: string)
    ensures Lower(Lower(s)) == Lower(s)
  {
  }

  /** Case plays no part: folding either side first changes nothing. */
  lemma CaseIsIgnored(h: string, n: string)
    ensures ContainsIgnoreCase(Lower(h), n) == ContainsIgnoreCase(h, n)
    ensures ContainsIgnoreCase(h, Lower(n)) == ContainsIgnoreCase(h, n)
  {
    LowerIdempotent(h);
    LowerIdempotent(n);
  }

  /** The empty string is contained in every string. */
  lemma ContainsEmpty(h: string)
    ensures ContainsIgnoreCase(h, "")
  {
    assert Lower("") == "";
    assert OccursAt(Lower(h), "", 0);
  }

  /** `s.replace(from, to)` with one-character strings: only the first occurrence changes. */
  function ReplaceFirst(s: string, from: char, to: char): (r: string)
    ensures |r| == |s|
    ensures from !in s ==> r == s
    ensures from in s ==> r == s[IndexOf(s, from) := to]
  {
    if |s| == 0 then s
    else if s[0] == from then [to] + s[1..]
    else
      var r := [s[0]] + ReplaceFirst(s[1..], from, to);
      assert from in s ==> from in s[1..];
      r
  }
}

=== FILE: user_controller.dfy ===
/** The backend user controller: reading and partially overwriting the caller's profile. */
module UserController {
  import opened Wrappers

  type UserId = nat

  /** A user document. The password credential is opaque to this controller. */
  datatype User = User(id: UserId, name: string, email: string, password: string, bio: string)

  /** The response body of both profile endpoints: no password field exists in it. */
  datatype Profile = Profile(id: UserId, name: string, email: string, bio: string)

  /** The request body of PUT /api/users/me, with every field a client might send. */
  datatype ProfileBody = ProfileBody(
    name: Option<string>,
    bio: Option<string>,
    email: Option<string>,
    password: Option<string>)

  /** GET /api/users/me: the projection of the caller onto the public fields. */
  function GetMe(u: User): (r: Profile)
    ensures r.id == u.id && r.name == u.name && r.email == u.email && r.bio == u.bio
  {
    Profile(u.id, u.name, u.email, u.bio)
  }

  /** The user saved by PUT /api/users/me, and the response sent back. */
  datatype ProfileUpdate = ProfileUpdate(saved: User, response: Profile)

  /** PUT /api/users/me: name and bio are overwritten when sent, even as ""; no other
      field of the body is read, so email and password never change. */
  function UpdateMe(u: User, body: ProfileBody): (r: ProfileUpdate)
    ensures r.saved.id == u.id && r.saved.email == u.email && r.saved.password == u.password
    ensures r.saved.name == body.name.GetOr(u.name)
    ensures r.saved.bio == body.bio.GetOr(u.bio)
    ensures r.response == GetMe(r.saved)
  {
    var u1 := if body.name.Some? then u.(name := body.name.value) else u;
    var u2 := if body.bio.Some? then u1.(bio := body.bio.value) else u1;
    ProfileUpdate(u2, Profile(u2.id, u2.name, u2.email, u2.bio))
  }

  /** Whatever email or password the body carries, the outcome is the same as without them. */
  lemma UpdateMeIgnoresOtherFields(u: User, body: ProfileBody)
    ensures UpdateMe(u, body) == UpdateMe(u, ProfileBody(body.name, body.bio, None, None))
  {
  }

  /** Sending the same body twice leaves the user as sending it once. */
  lemma UpdateMeIdempotent(u: User, body: ProfileBody)
    ensures UpdateMe(UpdateMe(u, body).saved, body) == UpdateMe(u, body)
  {
  }

  /** A body with neither name nor bio saves the user unchanged. */
  lemma UpdateMeEmptyBody(u: User, email: Option<string>, password: Option<string>)
    ensures UpdateMe(u, ProfileBody(None, None, email, password)).saved == u
  {
  }

  /** There is no validation: an empty name is stored as sent. */
  lemma UpdateMeAcceptsEmptyName(u: User)
    ensures UpdateMe(u, ProfileBody(Some(""), None, None, None)).saved.name == ""
  {
  }

  /** Reading the profile after an update shows the sent name and bio and the
      id and email read before it. */
  lemma GetMeAfterUpdate(u: User, body: ProfileBody)
    ensures GetMe(UpdateMe(u, body).saved).id == GetMe(u).id
    ensures GetMe(UpdateMe(u, body).saved).email == GetMe(u).email
    ensures GetMe(UpdateMe(u, body).saved).name == body.name.GetOr(GetMe(u).name)
    ensures GetMe(UpdateMe(u, body).saved).bio == body.bio.GetOr(GetMe(u).bio)
  {
  }
}

=== FILE: wishlist.dfy ===
/** The recommendations page's wishlist: a set of product ids toggled one at a time. */
module Wishlist {
  type ProductId = string

  /** Removes the id when present, adds it otherwise. */
  function Toggle(wishlist: set<ProductId>, id: ProductId): (r: set<ProductId>)
    ensures id in r <==> id !in wishlist
    ensures forall other :: other != id ==> (other in r <==> other in wishlist)
    ensures id in wishlist ==> |r| == |wishlist| - 1
    ensures id !in wishlist ==> |r| == |wishlist| + 1
  {
    if id in wishlist then wishlist - {id} else wishlist + {id}
  }

  /** Toggling the same id twice gives the wishlist back. */
  lemma ToggleTwice(wishlist: set<ProductId>, id: ProductId)
    ensures Toggle(Toggle(wishlist, id), id) == wishlist
  {
  }

  /** Toggles of different ids commute. */
  lemma TogglesCommute(wishlist: set<ProductId>, a: ProductId, b: ProductId)
    ensures Toggle(Toggle(wishlist, a), b) == Toggle(Toggle(wishlist, b), a)
  {
  }
}

=== FILE: wrappers.dfy ===
/** Absence and failure values shared by every module of the model. */
module Wrappers {

  /** A value that may be absent: a JSON field or query parameter that was not sent. */
  datatype Option<+T> = None | Some(value: T) {

    /** The present value, or `default` when absent. */
    function GetOr(default: T): T {
      match this
      case Some(v) => v
      case None => default
    }
  }

  /** The outcome of an operation that can fail with an error of type E. */
  datatype Result<+T, +E> = Ok(value: T) | Err(error: E)
}
